=== FILE: README.md ===
# County health dashboard: data join and selection logic

This project models, in Dafny, the logic under the drawing code of a D3
dashboard of US county health data. Three parts are modelled.

- **The join** (`js/main.js`). The loaded TopoJSON `counties` object is
  shared by reference with every view. `dataConsolidation` walks its
  geometries in place. For every health row whose `cnty_fips` equals a
  geometry's `id`, it writes three things into the geometry's
  `properties`:
  - the primary metric into `poverty_perc`;
  - the secondary metric into `percent_high_cholesterol`;
  - the FIPS number into `id`.

  It also looks up the two feature descriptors. Two fifteen-way chains in
  `updateVisualizations` pick the metric columns. An unknown name leaves
  the column `undefined`. The join then throws a TypeError at the first
  matching row, and the refresh stops there.
- **The selection store** (`js/dataStore.js`). It holds one selection and
  an ordered list of listeners, and notifies every listener of each new
  selection.
- **The views** (`js/povertyMap.js`, `js/cholesterolMap.js`,
  `js/cholesterolScatter.js`, `js/cholesterolHistogram.js`). Each view
  prepares data before drawing:
  - container sizes with `||` defaults;
  - colour domains that skip the `-1` "no data" sentinel;
  - the highlighted ids of an incoming selection;
  - per-county fill, stroke and tooltip, decided by JavaScript
    truthiness;
  - inclusive-rectangle brushing and what each brush publishes;
  - the scatter plot's valid-point filter and axis domains;
  - the histogram's sentinel filter and domains.

The source's own form is kept. `dataConsolidation` is a method with the
nested loop over a shared `Counties` object. `DataStore` and the three
drawn views are classes whose methods update their fields. Each method is
proved against a specification function: `Consolidate`, `Draw`,
`GoodData`, `InRect`, `Round`. The properties the code promises are
proved about those functions as lemmas:
- idempotence of the join;
- the last matching row wins;
- unmatched counties are left untouched;
- highlighting depends only on the set of selected ids;
- filters keep order;
- domains bound their data.

Modules: `JsValues` (values, truthiness, d3 min/max/extent), `Seqs`,
`Dataset`, `Layout`, `Brush`, `Consolidation`, `SelectionStore`,
`Choropleth`, `PovertyMapView`, `CholesterolMapView`, `ScatterView`,
`Histogram`, `Main`.

A JavaScript exception is modelled as an `ok: bool` result that is false
when the code would throw. The state at that point is exactly what the
code had written before the throw, and every contract says so for the
failure path as well. In the source, the view constructors end by calling
`initVis()`, which can throw. Here each view's `InitVis` method is
separate from its constructor, because a Dafny constructor cannot report
a throw. `Dashboard.Start` calls them in construction order.

When a view's `initVis` throws, that view's `const` in js/main.js and
every later one are never initialised. They stay in the temporal dead
zone, so a later `updateVisualizations()` that reaches one of them throws
a ReferenceError. `Dashboard.built` counts the views that finished
construction. `Dashboard.RefreshViews` and the brush hand-offs consult it.

The scatter's `good_data` holds references to the geometries'
`properties` objects, which a later join overwrites in place. The model
keeps it as positions in the shared geometry array, and reads the records
through them whenever the source does: when it draws, brushes or publishes.
The circles keep the values they were placed from at their last draw.

A listener's `update` may throw too. That ends the `forEach` round in
`notifyListeners` and propagates out of `setSelectedData`.

## Model

| member | source | states |
|---|---|---|
| JsValues.ToNumber | js/main.js:40-42 | unary `+` on a cell: a present number stays that number, a missing cell becomes NaN, which is falsy |
| JsValues.Truthy | js/povertyMap.js:131-137 | a value is falsy exactly when it is undefined, NaN, 0 or the empty string |
| JsValues.IsDatum | js/povertyMap.js:83-85 | a plotted value is a number other than the -1 sentinel, so never undefined or NaN; every such number qualifies |
| JsValues.MaxOf | js/cholesterolScatter.js:110-111 | d3.max: undefined iff there are no numbers, otherwise a member that bounds all of them from above |
| JsValues.MinOf | js/cholesterolScatter.js:118-119 | d3.min: undefined iff there are no numbers, otherwise a member that bounds all of them from below |
| JsValues.Extent | js/cholesterolScatter.js:118-119 | `[min, max]` skipping undefined and NaN: both ends defined iff some number exists, both ends attained, every number between them |
| JsValues.Numbers | js/cholesterolScatter.js:118-119 | the numbers d3 looks at: a value counts iff it is a number, so undefined and NaN are skipped |
| Seqs.Filter | js/dataStore.js:21 | `filter`: keeps exactly the accepted elements, no more elements than the input |
| Seqs.FilterIdempotent | js/cholesterolScatter.js:105-107 | filtering twice with one test equals filtering once |
| Seqs.FilterAppend | js/dataStore.js:21 | filter distributes over concatenation, so relative order is kept |
| Dataset.Cell | js/main.js:55 | reading `row[name]` is undefined exactly when the row has no such column |
| Dataset.ColumnOf | js/main.js:55 | `health.map(d => d[name])`: one cell per row, cell `i` read from row `i` |
| Dataset.PropertiesOf | js/cholesterolScatter.js:106 | `geometries.map(element => element.properties)`, position by position |
| Dataset.ValuesOf | js/cholesterolScatter.js:114-115 | the accessor applied to every record, position by position |
| Dataset.Counties.constructor | js/main.js:17 | the loaded counties object holds the given geometries and no descriptors yet |
| Consolidation.PrimaryColumn | js/main.js:54-84 | the primary chain yields `health.map(d => d[name])` exactly for the fifteen listed names (typo `percent_no_heath_insurance` included) and undefined for any other |
| Consolidation.SecondaryColumn | js/main.js:86-116 | the secondary chain covers the same fifteen names with the same columns |
| Consolidation.ChainsAgree | js/main.js:54-116 | both chains select the same column for every name, known or not |
| Consolidation.FindDescriptor | js/main.js:35-36 | `find`: undefined iff no descriptor has the id, otherwise the first one that has it |
| Consolidation.Written | js/main.js:40-42 | a match writes `+d1[i]` into `poverty_perc`, `+d2[i]` into `percent_high_cholesterol` and `+cnty_fips` into `id`, and keeps the name |
| Consolidation.WriteRow | js/main.js:39-43 | a matching row throws exactly when a column is undefined, and keeps the geometry id and name |
| Consolidation.JoinRows | js/main.js:38-44 | rows `[0..n)` leave id and name alone, throw iff a column is undefined and some row matches, and leave a geometry with no match exactly as it was |
| Consolidation.JoinGeometry | js/main.js:38-44 | one geometry's pass over all rows keeps its id and name, throws iff a column is undefined and some row matches, and leaves a geometry with no match exactly as it was |
| Consolidation.RunFrom | js/main.js:37-45 | the `forEach` keeps the number of geometries |
| Consolidation.Consolidate | js/main.js:34-46 | the join yields one geometry per input geometry |
| Consolidation.RunFromKeepsPrefix | js/main.js:37-45 | the walk from `k` never changes the geometries before `k` |
| Consolidation.RunFromKeepsGeometries | js/main.js:37-45 | no geometry's id or name changes, whatever the columns |
| Consolidation.ConsolidateKeepsGeometries | js/main.js:37-45 | the join keeps the number and order of geometries and their ids and names |
| Consolidation.RunFromThrowsIff | js/main.js:37-45 | the walk from `k` throws iff a column is undefined and some later geometry has a matching row |
| Consolidation.ConsolidateThrowsIff | js/main.js:34-46 | the join throws iff a column is undefined and some geometry has a matching health row |
| Consolidation.JoinRowsStopsAtThrow | js/main.js:38-44 | after the throw no later row is reached |
| Consolidation.LastMatch | js/main.js:38-39 | the last row index below `n` whose FIPS equals the id, or none iff there is no such row |
| Consolidation.Joined | js/main.js:39-43 | the geometry its last matching row leaves: id and name kept; with no match it is unchanged; otherwise `poverty_perc` and `percent_high_cholesterol` are that row's converted cells and `properties.id` is the geometry's FIPS number |
| Consolidation.JoinRowsTakesLastMatch | js/main.js:38-44 | with both columns present, a geometry takes the values of its last matching row, or stays as it was if none matches, and nothing throws |
| Consolidation.JoinGeometryIdempotent | js/main.js:37-45 | joining a geometry a second time changes nothing |
| Consolidation.FirstThrowIdempotent | js/main.js:38-44 | with a column missing, repeating the rows up to the first throw gives the same geometry and the same throw |
| Consolidation.RunFromIdempotent | js/main.js:37-45 | re-running the walk from `k` on its own result gives the same geometries and outcome |
| Consolidation.ConsolidateIdempotent | js/main.js:34-46 | calling `dataConsolidation` twice with the same arguments leaves the same state and outcome as once |
| Consolidation.RunFromJoinsEveryGeometry | js/main.js:37-45 | with both columns present, every geometry from `k` on is joined with its last matching row, and those before `k` are untouched |
| Consolidation.ConsolidateJoinsEveryGeometry | js/main.js:34-46 | with both columns present, the join never throws, and each geometry takes its last matching row's values or is left unchanged when no row matches |
| Main.DataConsolidation | js/main.js:34-46 | the method with the nested loop: `feature1`/`feature2` are the `find` results, and the geometry array and the thrown flag are exactly `Consolidate` of the old array |
| Main.JoinGeometryInPlace | js/main.js:38-44 | the inner loop changes only geometry `k`, which becomes its joined version, and reports a throw |
| Main.LoadingNeverThrows | js/main.js:29-31 | the first join, with the `poverty_perc` and `percent_high_cholesterol` columns, never throws |
| Main.LoadCounties | js/main.js:17-31 | loading yields a fresh counties object whose geometries are `Consolidate` of the loaded ones with the `poverty_perc` and `percent_high_cholesterol` columns, carrying those two descriptors |
| Main.Open | js/main.js:10-155 | start-up: the geometries are joined with `poverty_perc` and `percent_high_cholesterol` and carry those descriptors; every view shares the one counties object; start-up succeeds iff both descriptors exist, and then every view is current |
| Main.Dashboard.constructor | js/main.js:133-155 | the page holds the given counties object, health table and descriptors; every view is created over that one counties object, and none has finished construction yet |
| Main.NewViews | js/main.js:133-155 | the three views are new, distinct objects, each over the one counties object it is given |
| Main.Dashboard.Start | js/main.js:133-155 | the views initialise in construction order, and the first throw stops the rest: none is built without `feature1`, only the poverty map without `feature2`, otherwise all three. All succeed iff both descriptors exist, and then every view shows the current data with no selection and is labelled from the descriptors. A built poverty map has its domain, legend stops, title and drawing; a view never reached is unchanged |
| Main.Dashboard.RefreshViews | js/main.js:120-126 | the `updateVis` calls in order: a view never built throws a ReferenceError and stops the rest. The refresh succeeds iff all three views are built and both descriptors exist, and then every view is current and relabelled from the new descriptors. A map that throws has already recomputed its domain and legend stops and keeps its title and drawing; each view not reached keeps its state |
| Main.Dashboard.UpdateVisualizations | js/main.js:48-126 | the descriptors are the `find` results, and the geometries become `Consolidate` of the old ones with the chosen columns. A throw in the join leaves every view unchanged; otherwise the views are refreshed exactly as `RefreshViews` states, so a successful change of metric relabels every view |
| Main.Dashboard.ScatterBrushed | js/povertyMap.js:107-109 | once every view is built, the poverty map redraws with the scatter brush's payload; a cleared scatter brush strokes no county |
| Main.Dashboard.MapBrushed | js/cholesterolScatter.js:139-145 | the map brush publishes on `mapBrush` iff there is a selection, with the covered features. The scatter then redraws, if it was built, placing every `good_data` record from its current values; otherwise nothing changes |
| SelectionStore.Broadcast | js/dataStore.js:24-28 | one `update(data)` per listener entry, in list order |
| SelectionStore.FirstThrow | js/dataStore.js:25-27 | the position of the first listener whose `update` throws: none iff no listener throws, and no earlier listener throws |
| SelectionStore.Round | js/dataStore.js:25-27 | one `update` per listener in list order, up to and including the first one that throws, or all of them when none throws |
| SelectionStore.RoundWithoutThrow | js/dataStore.js:25-27 | a round in which no listener throws makes the full `Broadcast` |
| SelectionStore.Without | js/dataStore.js:21 | `filter(l => l !== listener)`: a listener remains iff it was registered and is not the one removed |
| SelectionStore.BroadcastCountsRegistrations | js/dataStore.js:16-18 | each listener is notified once per registration, so twice if registered twice |
| SelectionStore.WithoutRemovesAll | js/dataStore.js:20-22 | unregistering removes every occurrence of the listener and leaves the count of every other listener unchanged |
| SelectionStore.WithoutKeepsOrder | js/dataStore.js:20-22 | unregistering keeps the relative order of the remaining listeners |
| SelectionStore.WithoutAbsent | js/dataStore.js:20-22 | unregistering an absent listener leaves the list unchanged |
| SelectionStore.DataStore.constructor | js/dataStore.js:2-5 | initially the selection is null and there are no listeners |
| SelectionStore.DataStore.SetSelectedData | js/dataStore.js:7-10 | stores the selection, keeps the listeners, and delivers it in order up to the first listener that throws; it fails iff some listener throws |
| SelectionStore.DataStore.GetSelectedData | js/dataStore.js:12-14 | returns the stored selection and changes nothing |
| SelectionStore.DataStore.RegisterListener | js/dataStore.js:16-18 | appends the listener at the end; the selection is unchanged |
| SelectionStore.DataStore.UnregisterListener | js/dataStore.js:20-22 | the list loses every occurrence of the listener; the selection is unchanged |
| SelectionStore.DataStore.NotifyListeners | js/dataStore.js:24-28 | the loop makes exactly the deliveries of `Round`: every listener in order, stopping after the first that throws; it fails iff some listener throws |
| Layout.OrDefault | js/povertyMap.js:11-12 | the JavaScript `or` fallback: undefined and 0 fall back to the default, any other number is kept |
| Layout.Settle | js/povertyMap.js:9-13 | the view's `config`: each container size is the `or` fallback of the given one, the margin is the given one or the default, and an unconfigured view gets exactly the defaults |
| Layout.InnerSize | js/povertyMap.js:31-33 | the inner width plus the left and right margins is the container width, and likewise for the height |
| Brush.Features | js/povertyMap.js:117 | one county feature per geometry, in order |
| Brush.Records | js/cholesterolScatter.js:222 | the published records, in order |
| Brush.Within | js/povertyMap.js:227 | the inclusive rectangle test: nothing is inside an inverted rectangle, and both corners are inside any other |
| Brush.ElementId | js/povertyMap.js:114 | `element.id`: a map feature's id is its geometry's FIPS number, a scatter record's id is its `properties.id` |
| Brush.InRect | js/povertyMap.js:222-230 | the items whose position satisfies `x0 ≤ x ≤ x1 ∧ y0 ≤ y ≤ y1`, exactly, with no more items than the input |
| Brush.InRectAll | js/povertyMap.js:227 | a rectangle covering every position selects every item, in order |
| Brush.InRectNone | js/povertyMap.js:227 | a rectangle covering no position selects nothing |
| Brush.InRectAppend | js/povertyMap.js:222-230 | selection distributes over concatenation, so the county order is kept |
| Choropleth.SelectedIds | js/povertyMap.js:111-114 | a missing selection is the empty one; otherwise the elements' ids in order |
| Choropleth.IdsOf | js/povertyMap.js:120 | the counties' ids, in county order |
| Choropleth.HighlightedIds | js/povertyMap.js:119-120 | an id is highlighted iff it is both selected and a county's id; at most one entry per county |
| Choropleth.HighlightedIdsIff | js/cholesterolMap.js:136-137 | ids of the filtered counties are exactly the selected ids that belong to some county |
| Choropleth.Style | js/povertyMap.js:131-155 | striped fill and "No data available" iff the value is falsy, otherwise the value is coloured and shown; stroke `#333` iff the id is highlighted; `2px` iff the name is in the id list |
| Choropleth.Draw | js/povertyMap.js:111-151 | one style per county; a county is stroked iff its id is among the selected ids; `2px` iff its name is both selected and some county's id |
| Choropleth.MissingSelectionIsEmpty | js/povertyMap.js:111-113 | a null selection draws as the empty one and strokes no county |
| Choropleth.DrawDependsOnIdSet | js/povertyMap.js:114-144 | selections with the same set of ids draw the same map, so applying a selection twice changes nothing |
| Choropleth.NumericIdsNeverThick | js/cholesterolMap.js:162-168 | while no county id is a string, no county is ever drawn at 2px |
| Choropleth.SentinelIsColoured | js/cholesterolMap.js:148-154 | `-1` is coloured, while `0`, undefined and NaN are striped and show "No data available" |
| Choropleth.ColorDomain | js/povertyMap.js:82-88 | defined iff some value other than -1 exists; then `[min, max]` over those values, attained, never -1, bounding every such value |
| Choropleth.NoSentinel | js/povertyMap.js:82-85 | the extent accessor: a number results exactly for values other than -1, which pass unchanged |
| Choropleth.LegendStops | js/povertyMap.js:91-94 | two stops: the low colour at offset 0 with the domain's lower end, the high colour at offset 100 with its upper end |
| PovertyMapView.PovertyMap.constructor | js/povertyMap.js:8-21 | configuration with the defaults, so an unconfigured drawing area is 500 × 520; inner size is container minus margins |
| PovertyMapView.PovertyMap.InitVis | js/povertyMap.js:28-76 | succeeds iff `feature1` exists; then the domain, legend and title are set and no county is stroked; a throw leaves the view unchanged |
| PovertyMapView.PovertyMap.UpdateVis | js/povertyMap.js:78-101 | colour domain and legend stops (offsets 0 and 100) from the sentinel-free extent; throws iff `feature1` is missing; otherwise redraws with no selection |
| PovertyMapView.PovertyMap.RenderVis | js/povertyMap.js:104-151 | the styles become `Draw` of the current properties for the selection |
| PovertyMapView.PovertyMap.GetSelectedData | js/povertyMap.js:215-232 | the loop returns exactly the county features whose centroid lies in the inclusive rectangle, in county order |
| PovertyMapView.PovertyMap.Brushed | js/povertyMap.js:205-211 | an empty brush publishes nothing; otherwise the covered features go out on `mapBrush` |
| CholesterolMapView.CholesterolMap.constructor | js/cholesterolMap.js:8-21 | configuration with the defaults, so an unconfigured drawing area is 500 × 540; inner size is container minus margins |
| CholesterolMapView.CholesterolMap.InitVis | js/cholesterolMap.js:42-95 | succeeds iff `feature2` exists; then the domain, legend and title are set and no county is stroked; a throw leaves the view unchanged |
| CholesterolMapView.CholesterolMap.UpdateVis | js/cholesterolMap.js:97-118 | colour domain over `percent_high_cholesterol` values other than -1, legend stops at 0 and 100, throws iff `feature2` is missing, otherwise redraws with no selection |
| CholesterolMapView.CholesterolMap.RenderVis | js/cholesterolMap.js:121-168 | the styles become `Draw` of the current properties for the selection |
| ScatterView.IsGood | js/cholesterolScatter.js:107 | a valid point has poverty neither undefined nor -1 and cholesterol not -1; any point whose two values are numbers other than -1 is valid |
| ScatterView.GoodData | js/cholesterolScatter.js:105-107 | exactly the records with cholesterol ≠ -1, poverty ≠ -1 and poverty not undefined, with no more records than the input |
| ScatterView.GoodDataIdempotent | js/cholesterolScatter.js:105-107 | filtering the valid points again changes nothing |
| ScatterView.GoodIndicesFrom | js/cholesterolScatter.js:105-107 | the positions from `j` on of the valid records: each is in range and valid, and every valid position from `j` on is included |
| ScatterView.GoodIndices | js/cholesterolScatter.js:105-107 | the positions of the valid records: each one is valid, and every valid record's position is included |
| ScatterView.At | js/cholesterolScatter.js:165-171 | following held references: one record per position, the record at that position |
| ScatterView.GoodIndicesFromPick | js/cholesterolScatter.js:105-107 | the valid positions from `j` on pick out exactly the valid records of that suffix, in order |
| ScatterView.GoodIndicesPick | js/cholesterolScatter.js:105-107 | the positions `good_data` holds pick out exactly `GoodData`, in county order |
| ScatterView.UndefinedCholesterolKept | js/cholesterolScatter.js:107 | an undefined cholesterol value passes the filter and an undefined poverty value does not |
| ScatterView.DomainCoversPoints | js/cholesterolScatter.js:118-119 | every number of a valid point lies inside its axis's domain |
| ScatterView.PropertyIds | js/cholesterolScatter.js:152 | the selected features' property ids, in order |
| ScatterView.NoSelection | js/cholesterolScatter.js:147-157 | all valid points for an empty selection; otherwise exactly the valid points whose id is among the selected features' property ids |
| ScatterView.CholesterolScatter.constructor | js/cholesterolScatter.js:8-25 | configuration with the defaults, so an unconfigured drawing area is 445 × 555; `good_data` starts as references to all the property records |
| ScatterView.CholesterolScatter.GoodRecords | js/cholesterolScatter.js:105-106 | `good_data` read through its references: record `k` is the current `properties` of the geometry it refers to |
| ScatterView.CholesterolScatter.Refilter | js/cholesterolScatter.js:105-119 | `good_data` becomes references to exactly the valid records, in order, and the final domains are the extents over them |
| ScatterView.CholesterolScatter.InitVis | js/cholesterolScatter.js:30-96 | succeeds iff both descriptors exist; then `good_data` refers to the valid records, and domains, titles and circles are current. Without `feature2` nothing changes; without `feature1` only the x title is set |
| ScatterView.CholesterolScatter.UpdateVis | js/cholesterolScatter.js:101-131 | `good_data` is refiltered to references to the valid records, and the final domains are the extents over them, overwriting `[0, max]`. It succeeds iff both descriptors exist, and then retitles both axes and draws all valid points. A throw keeps the circles and the titles not yet reached |
| ScatterView.CholesterolScatter.RenderVis | js/cholesterolScatter.js:136-171 | the circles are bound to all of `good_data`, whatever selection is received, and placed from the records' current values |
| ScatterView.CholesterolScatter.Brushed | js/cholesterolScatter.js:217-236 | always publishes on `scatterPlotBrush`: null for a cleared brush, otherwise exactly the current `good_data` records whose scaled position lies in the rectangle |
| Histogram.PlotSize | js/cholesterolHistogram.js:42-44 | the plot is container width − 70 by container height − 40, so 430 × 360 unconfigured |
| Histogram.Cholesterol | js/cholesterolHistogram.js:59 | the histogram's accessor reads the `percent_high_cholesterol` slot |
| Histogram.DataNoNull | js/cholesterolHistogram.js:65-67 | exactly the geometries whose value is not -1, with no more geometries than the input |
| Histogram.DataNoNullIdempotent | js/cholesterolHistogram.js:65-67 | removing the sentinel twice changes nothing |
| Histogram.XDomain | js/cholesterolHistogram.js:49 | `[0, max]` over all geometries, -1 included: upper end defined iff some number exists, attained, bounding every value |
| Histogram.RetainedWithinXDomain | js/cholesterolHistogram.js:49 | every retained value is not -1 and is no larger than the upper end of the x domain |
| Histogram.MaxBinLength | js/cholesterolHistogram.js:74 | the largest bin length, attained, or undefined iff there are no bins |
| Histogram.YDomain | js/cholesterolHistogram.js:74 | `[0, max bin length]`, bounding every bin's length |

## Left out

- Drawing: SVG, DOM, tooltips, gradients, axes and `svg.selectAll("*").remove()` are side effects with no value to model. Fill, stroke and tooltip choices are kept as data.
- Geographic projection, `geoPath.centroid` and the linear scales: centroids and scaled points are inputs to the brush methods. A NaN centroid, which can never be inside a rectangle, cannot be expressed.
- HCL colour interpolation: a coloured county is recorded as `Scaled(value)`, which does not record the colour scale it was drawn with. When a map's `updateVis` throws on a missing descriptor, its `colorDomain` is already the new one, but the drawn counties keep the colours of the previous scale (the failure branch of `Dashboard.Refreshed`).
- `d3.histogram` binning with `x.ticks(70)`: the bins are an input to `Histogram.YDomain`. The histogram has no modelled state, because its `updateVis` only redraws from the current data, so it is given as functions of the geometries.
- The legend label rounding `Math.round(d.value * 10) / 10`: floating point.
- CSV parsing and loose `==` coercion: health cells are parsed numbers or absent, FIPS codes and geometry ids are integers, and a feature's `id` is that integer as a number. Strings reach the model only as county names.
- d3.min, d3.max and d3.extent compare strings when given strings. The modelled property slots only ever hold numbers, NaN or `undefined`, so the string case is not modelled.
- Loading (`Promise.all`, `d3.json`, `d3.csv`), `topojson.feature`, the `<select>` change listeners and `console.log`: I/O. `Dashboard.UpdateVisualizations` takes the two selected names as arguments.
- `d3.dispatch` internals. `Dashboard.ScatterBrushed` and `Dashboard.MapBrushed` wire each channel to the one view that listens on it: the poverty map on `scatterPlotBrush` and the scatter on `mapBrush`. Whether handlers re-registered in `renderVis` replace or accumulate does not change the result, because a repeated redraw with the same payload gives the same state. The no-op top-level handler in js/main.js:162-165 is not modelled.
- `DataStore` listeners are opaque identities. `update` is recorded as a delivery in a ghost log, because the listeners' own code is not part of this model. For the same reason, which listeners throw on a selection is given to `SetSelectedData` and `NotifyListeners` as the set `throwing`.
- `PovertyHistogram` (js/main.js:141, 123): its source is not part of this model. `Dashboard.Start` skips its construction and `Dashboard.RefreshViews` skips its `updateVis`, so the model assumes neither throws nor changes modelled state.
- `CholesterolHistogram` (js/main.js:145, 124) holds no modelled state and reads no descriptor, so it cannot throw on a missing one. `Dashboard.Start` and `Dashboard.RefreshViews` skip it, and its computations are the `Histogram` functions.
- Choropleth.Style: the tooltip is recorded with each county's style, from the values at the last redraw. The source builds the tooltip text on mousemove from the live `properties` objects (js/povertyMap.js:155, js/cholesterolMap.js:172). After a join whose refresh stopped before a map was redrawn, the source's tooltip shows the new value. The model's recorded one shows the old value, and `Style` of the current properties gives the new one.
- Commented-out code, including `selectedClusterData`, and the `selectedData` svg handler of js/cholesterolMap.js:90-92, which calls a method that does not exist.
- The unused full extents (js/povertyMap.js:81, js/cholesterolMap.js:100), the tooltip padding and position, and the descriptor's tooltip suffix.
- The scatter's `noselection` is defined but never called in js/cholesterolScatter.js, so the scatter never uses a map brush's features. It is modelled on its own as `ScatterView.NoSelection`.

=== FILE: brush.dfy ===
/**
 * Rectangle brushing shared by the map and the scatter plot, and what a
 * brush handler publishes on the dispatcher.
 */
module Brush {
  import opened JsValues
  import opened Dataset

  /** A screen position (a projected centroid or a scaled data point). */
  datatype Point = Point(x: real, y: real)

  /** A brush selection `[[x0, y0], [x1, y1]]`. */
  datatype Rect = Rect(x0: real, y0: real, x1: real, y1: real)

  /** The inclusive containment test both brushes apply. */
  predicate Within(p: Point, r: Rect)
    ensures Within(p, r) ==> r.x0 <= r.x1 && r.y0 <= r.y1
    ensures p in {Point(r.x0, r.y0), Point(r.x1, r.y1)} ==> (Within(p, r) <==> r.x0 <= r.x1 && r.y0 <= r.y1)
  {
    r.x0 <= p.x <= r.x1 && r.y0 <= p.y <= r.y1
  }

  /**
   * One element of a published selection: a GeoJSON county feature (from
   * the map brush), whose `id` is the geometry's FIPS number, or a
   * `properties` record (from the scatter brush), whose `id` is the one
   * the join wrote.
   */
  datatype Selected = Feature(g: Geometry) | Record(p: Props)

  /** `element.id`. */
  function ElementId(e: Selected): (id: Val)
    ensures e.Feature? ==> id == Num(e.g.id as real) && id.Num?
    ensures e.Record? ==> id == e.p.id
  {
    match e
    case Feature(g) => Num(g.id as real)
    case Record(p) => p.id
  }

  /** The features `topojson.feature` builds, one per geometry, in order. */
  function Features(gs: seq<Geometry>): (fs: seq<Selected>)
    ensures |fs| == |gs|
    ensures forall i :: 0 <= i < |gs| ==> fs[i] == Feature(gs[i])
  {
    seq(|gs|, i requires 0 <= i < |gs| => Feature(gs[i]))
  }

  /** The property records as published elements. */
  function Records(ps: seq<Props>): (rs: seq<Selected>)
    ensures |rs| == |ps|
    ensures forall i :: 0 <= i < |ps| ==> rs[i] == Record(ps[i])
  {
    seq(|ps|, i requires 0 <= i < |ps| => Record(ps[i]))
  }

  /**
   * A `dispatcher.call(channel, null, payload)`, or nothing. The payload
   * is `null` (None) or a list of selected elements.
   */
  datatype Publication = Silent | Publish(channel: string, payload: Option<seq<Selected>>)

  /**
   * The items whose screen position lies in the rectangle, in their
   * original order; `pts[i]` is the position of `items[i]`.
   */
  function InRect<T(==,!new)>(items: seq<T>, pts: seq<Point>, r: Rect): (s: seq<T>)
    requires |pts| == |items|
    ensures |s| <= |items|
    ensures forall x :: x in s <==> exists i :: 0 <= i < |items| && items[i] == x && Within(pts[i], r)
  {
    if |items| == 0 then []
    else
      var n := |items| - 1;
      var prefix := InRect(items[..n], pts[..n], r);
      assert forall i :: 0 <= i < n ==> items[..n][i] == items[i] && pts[..n][i] == pts[i];
      prefix + (if Within(pts[n], r) then [items[n]] else [])
  }

  /** Brushing a rectangle that holds every position selects everything, in order. */
  lemma {:induction false} InRectAll<T(!new)>(items: seq<T>, pts: seq<Point>, r: Rect)
    requires |pts| == |items|
    requires forall i :: 0 <= i < |pts| ==> Within(pts[i], r)
    ensures InRect(items, pts, r) == items
  {
    if |items| > 0 {
      var n := |items| - 1;
      InRectAll(items[..n], pts[..n], r);
      assert items[..n] + [items[n]] == items;
    }
  }

  /** A rectangle that holds no position selects nothing. */
  lemma {:induction false} InRectNone<T(!new)>(items: seq<T>, pts: seq<Point>, r: Rect)
    requires |pts| == |items|
    requires forall i :: 0 <= i < |pts| ==> !Within(pts[i], r)
    ensures InRect(items, pts, r) == []
  {
    if |items| > 0 {
      var n := |items| - 1;
      InRectNone(items[..n], pts[..n], r);
    }
  }

  /** Brushing appended items appends their selection: the order of the items is kept. */
  lemma {:induction false} InRectAppend<T(!new)>(a: seq<T>, pa: seq<Point>, b: seq<T>, pb: seq<Point>, r: Rect)
    requires |pa| == |a| && |pb| == |b|
    ensures InRect(a + b, pa + pb, r) == InRect(a, pa, r) + InRect(b, pb, r)
  {
    if |b| == 0 {
      assert a + b == a && pa + pb == pa;
    } else {
      var n := |b| - 1;
      InRectAppend(a, pa, b[..n], pb[..n], r);
      assert (a + b)[..|a| + n] == a + b[..n];
      assert (pa + pb)[..|a| + n] == pa + pb[..n];
    }
  }
}

=== FILE: cholesterol_histogram.dfy ===
/**
 * `CholesterolHistogram`: the distribution of the secondary metric
 * (stored in `percent_high_cholesterol`). Everything it computes is a
 * function of the current geometries; the bins themselves come from
 * `d3.histogram` and are taken as given.
 */
module Histogram {
  import opened JsValues
  import opened Dataset
  import opened Layout
  import Seqs

  const ConfigMargin := Margin(10.0, 0.0, 0.0, 0.0)
  /** The margin `renderVis` lays the plot out with, independent of the configuration. */
  const PlotMargin := Margin(10.0, 30.0, 30.0, 40.0)

  /** The plotting area `renderVis` uses. */
  function PlotSize(cfg: Config): (size: (real, real))
    ensures size.0 == Settle(cfg, 500.0, 400.0, ConfigMargin).containerWidth - 70.0
    ensures size.1 == Settle(cfg, 500.0, 400.0, ConfigMargin).containerHeight - 40.0
    ensures cfg == Unconfigured ==> size == (430.0, 360.0)
  {
    var s := Settle(cfg, 500.0, 400.0, ConfigMargin);
    (s.containerWidth - PlotMargin.left - PlotMargin.right, s.containerHeight - PlotMargin.top - PlotMargin.bottom)
  }

  /** The histogram's accessor `d => d.properties.percent_high_cholesterol`. */
  function Cholesterol(g: Geometry): (v: Val)
    ensures v == Get(g.properties, HighCholesterol)
  {
    g.properties.cholesterolPerc
  }

  /** `data_no_null`: the geometries whose value is not the `-1` sentinel, in order. */
  function DataNoNull(gs: seq<Geometry>): (r: seq<Geometry>)
    ensures |r| <= |gs|
    ensures forall i :: 0 <= i < |r| ==> r[i] in gs && Cholesterol(r[i]) != Num(Sentinel)
    ensures forall i :: 0 <= i < |gs| && Cholesterol(gs[i]) != Num(Sentinel) ==> gs[i] in r
  {
    Seqs.Filter(gs, (g: Geometry) => Cholesterol(g) != Num(Sentinel))
  }

  /** Removing the sentinel twice changes nothing. */
  lemma DataNoNullIdempotent(gs: seq<Geometry>)
    ensures DataNoNull(DataNoNull(gs)) == DataNoNull(gs)
  {
    Seqs.FilterIdempotent(gs, (g: Geometry) => Cholesterol(g) != Num(Sentinel));
  }

  /** The x domain `[0, d3.max(all values)]`: taken over every geometry, the `-1` ones included. */
  function XDomain(gs: seq<Geometry>): (d: Domain)
    ensures d.lo == Some(0.0)
    ensures d.hi.Some? <==> exists i :: 0 <= i < |gs| && Cholesterol(gs[i]).Num?
    ensures d.hi.Some? ==> exists i :: 0 <= i < |gs| && Cholesterol(gs[i]) == Num(d.hi.value)
    ensures d.hi.Some? ==> forall i :: 0 <= i < |gs| && Cholesterol(gs[i]).Num? ==> Cholesterol(gs[i]).r <= d.hi.value
  {
    var vs := ValuesOf(PropertiesOf(gs), HighCholesterol);
    assert forall i :: 0 <= i < |gs| ==> vs[i] == Cholesterol(gs[i]);
    forall x | Num(x) in vs
      ensures exists i :: 0 <= i < |gs| && Cholesterol(gs[i]) == Num(x)
    {
      var i :| 0 <= i < |vs| && vs[i] == Num(x);
    }
    Domain(Some(0.0), MaxOf(Numbers(vs)))
  }

  /** Every retained value is a number no larger than the x domain's upper end, and not the sentinel. */
  lemma RetainedWithinXDomain(gs: seq<Geometry>, i: nat)
    requires i < |DataNoNull(gs)| && Cholesterol(DataNoNull(gs)[i]).Num?
    ensures XDomain(gs).hi.Some?
    ensures Cholesterol(DataNoNull(gs)[i]).r != Sentinel
    ensures Cholesterol(DataNoNull(gs)[i]).r <= XDomain(gs).hi.value
  {
    var g := DataNoNull(gs)[i];
    var j :| 0 <= j < |gs| && gs[j] == g;
  }

  /** `d3.max(bins, d => d.length)`: `undefined` (None) when there are no bins. */
  function MaxBinLength(bins: seq<seq<Geometry>>): (m: Option<nat>)
    ensures m.None? <==> |bins| == 0
    ensures m.Some? ==> (exists i :: 0 <= i < |bins| && |bins[i]| == m.value)
    ensures m.Some? ==> forall i :: 0 <= i < |bins| ==> |bins[i]| <= m.value
  {
    if |bins| == 0 then None
    else
      match MaxBinLength(bins[1..])
      case None => Some(|bins[0]|)
      case Some(rest) => Some(if |bins[0]| >= rest then |bins[0]| else rest)
  }

  /** The y domain `[0, longest bin]`. */
  function YDomain(bins: seq<seq<Geometry>>): (d: Domain)
    ensures d.lo == Some(0.0)
    ensures d.hi.Some? <==> |bins| > 0
    ensures d.hi.Some? ==> forall i :: 0 <= i < |bins| ==> |bins[i]| as real <= d.hi.value
  {
    var m := MaxBinLength(bins);
    Domain(Some(0.0), if m.Some? then Some(m.value as real) else None)
  }
}

=== FILE: cholesterol_map.dfy ===
/**
 * `CholesterolMap`: the county choropleth of the secondary metric
 * (stored in `percent_high_cholesterol`) with its legend. It has no
 * brush of its own and listens to no channel.
 */
module CholesterolMapView {
  import opened JsValues
  import opened Dataset
  import opened Layout
  import opened Brush
  import opened Choropleth

  const DefaultMargin := Margin(-120.0, 0.0, 0.0, 0.0)
  const LowColor := "#00ff00"
  const HighColor := "#ff0000"

  class CholesterolMap {
    /** The shared counties object the join fills in place. */
    const data: Counties
    const settings: Settings
    const width: real
    const height: real
    var colorDomain: Domain
    var legendStops: seq<Stop>
    var legendTitle: string
    var styles: seq<CountyStyle>

    constructor (cfg: Config, data: Counties)
      ensures this.data == data
      ensures settings == Settle(cfg, 500.0, 420.0, DefaultMargin)
      ensures (width, height) == InnerSize(settings)
      ensures cfg == Unconfigured ==> width == 500.0 && height == 540.0
      ensures colorDomain == Domain(None, None) && legendStops == [] && legendTitle == "" && styles == []
    {
      this.data := data;
      settings := Settle(cfg, 500.0, 420.0, DefaultMargin);
      width := InnerSize(Settle(cfg, 500.0, 420.0, DefaultMargin)).0;
      height := InnerSize(Settle(cfg, 500.0, 420.0, DefaultMargin)).1;
      colorDomain := Domain(None, None);
      legendStops := [];
      legendTitle := "";
      styles := [];
    }

    /** `initVis`: the legend title needs `feature2`, then a first `updateVis`. */
    method InitVis() returns (ok: bool)
      modifies this
      ensures ok <==> data.feature2.Some?
      ensures ok ==> colorDomain == ColorDomain(data.Properties(), HighCholesterol)
      ensures ok ==> legendStops == LegendStops(colorDomain, LowColor, HighColor)
      ensures ok ==> legendTitle == data.feature2.value.featureName
      ensures ok ==> styles == Draw(data.Properties(), HighCholesterol, None)
      ensures !ok ==> unchanged(this)
    {
      if data.feature2.None? {
        return false;  // TypeError: reading feature_name of undefined
      }
      legendTitle := data.feature2.value.featureName;
      ok := UpdateVis();
    }

    /**
     * `updateVis`: recompute the colour domain and legend stops, retitle
     * the legend from `feature2` and redraw with no selection.
     */
    method UpdateVis() returns (ok: bool)
      modifies this
      ensures colorDomain == ColorDomain(data.Properties(), HighCholesterol)
      ensures legendStops == LegendStops(colorDomain, LowColor, HighColor)
      ensures ok <==> data.feature2.Some?
      ensures ok ==> legendTitle == data.feature2.value.featureName
      ensures ok ==> styles == Draw(data.Properties(), HighCholesterol, None)
      ensures !ok ==> legendTitle == old(legendTitle) && styles == old(styles)
    {
      colorDomain := ColorDomain(data.Properties(), HighCholesterol);
      legendStops := LegendStops(colorDomain, LowColor, HighColor);
      if data.feature2.None? {
        return false;  // TypeError: reading feature_name of undefined
      }
      legendTitle := data.feature2.value.featureName;
      RenderVis(None);
      ok := true;
    }

    /** `renderVis(selectedData)`: restyle every county for the selection. */
    method RenderVis(selected: Option<seq<Selected>>)
      modifies this`styles
      ensures styles == Draw(data.Properties(), HighCholesterol, selected)
    {
      styles := Draw(data.Properties(), HighCholesterol, selected);
    }
  }
}

=== FILE: cholesterol_scatter.dfy ===
/**
 * `CholesterolScatter`: one point per county with both metrics present,
 * secondary metric on x and primary metric on y, and a rectangle brush
 * that publishes the covered points on the `scatterPlotBrush` channel.
 */
module ScatterView {
  import opened JsValues
  import opened Dataset
  import opened Layout
  import opened Brush
  import Seqs

  const DefaultMargin := Margin(25.0, 20.0, 20.0, 35.0)
  const BrushChannel := "scatterPlotBrush"

  /**
   * The valid-point test: `percent_high_cholesterol !== -1`,
   * `poverty_perc !== -1` and `poverty_perc != undefined`. An undefined
   * or NaN cholesterol value passes, and so does a NaN poverty value.
   */
  predicate IsGood(p: Props)
    ensures IsGood(p) ==> p.povertyPerc !in {Undef, Num(Sentinel)} && p.cholesterolPerc != Num(Sentinel)
    ensures IsDatum(p.povertyPerc) && IsDatum(p.cholesterolPerc) ==> IsGood(p)
  {
    p.cholesterolPerc != Num(Sentinel) && p.povertyPerc != Num(Sentinel) && p.povertyPerc != Undef
  }

  /** `good_data`: the valid property records, in county order. */
  function GoodData(ps: seq<Props>): (g: seq<Props>)
    ensures |g| <= |ps|
    ensures forall i :: 0 <= i < |g| ==> g[i] in ps && IsGood(g[i])
    ensures forall i :: 0 <= i < |ps| && IsGood(ps[i]) ==> ps[i] in g
  {
    Seqs.Filter(ps, IsGood)
  }

  /**
   * The positions, from `j` on, of the valid points in `ps`, in order:
   * what `good_data` refers to, as positions in the geometry array.
   */
  function GoodIndicesFrom(ps: seq<Props>, j: nat): (idx: seq<nat>)
    requires j <= |ps|
    ensures |idx| <= |ps| - j
    ensures forall k :: 0 <= k < |idx| ==> j <= idx[k] < |ps| && IsGood(ps[idx[k]])
    ensures forall i :: j <= i < |ps| && IsGood(ps[i]) ==> i in idx
    decreases |ps| - j
  {
    if j == |ps| then []
    else (if IsGood(ps[j]) then [j] else []) + GoodIndicesFrom(ps, j + 1)
  }

  function GoodIndices(ps: seq<Props>): (idx: seq<nat>)
    ensures forall k :: 0 <= k < |idx| ==> idx[k] < |ps| && IsGood(ps[idx[k]])
    ensures forall i :: 0 <= i < |ps| && IsGood(ps[i]) ==> i in idx
  {
    GoodIndicesFrom(ps, 0)
  }

  /** The records at the given positions, in order: following held references. */
  function At(ps: seq<Props>, idx: seq<nat>): (rs: seq<Props>)
    requires forall k :: 0 <= k < |idx| ==> idx[k] < |ps|
    ensures |rs| == |idx|
    ensures forall k :: 0 <= k < |idx| ==> rs[k] == ps[idx[k]]
  {
    seq(|idx|, k requires 0 <= k < |idx| => ps[idx[k]])
  }

  lemma AtAppend(ps: seq<Props>, a: seq<nat>, b: seq<nat>)
    requires forall k :: 0 <= k < |a| ==> a[k] < |ps|
    requires forall k :: 0 <= k < |b| ==> b[k] < |ps|
    ensures At(ps, a + b) == At(ps, a) + At(ps, b)
  {
    assert forall k :: 0 <= k < |a + b| ==> (a + b)[k] < |ps|;
  }

  /** The positions of the valid points pick out exactly the valid records, in order. */
  lemma {:induction false} GoodIndicesFromPick(ps: seq<Props>, j: nat)
    requires j <= |ps|
    ensures At(ps, GoodIndicesFrom(ps, j)) == GoodData(ps[j..])
    decreases |ps| - j
  {
    if j == |ps| {
      assert ps[j..] == [];
    } else {
      var t := ps[j..];
      assert t[0] == ps[j] && t[1..] == ps[j + 1..];
      assert GoodData(t) == Seqs.Filter(t, IsGood);
      assert Seqs.Filter(t, IsGood) == (if IsGood(t[0]) then [t[0]] else []) + Seqs.Filter(t[1..], IsGood);
      var head: seq<nat> := if IsGood(ps[j]) then [j] else [];
      var rest := GoodIndicesFrom(ps, j + 1);
      assert GoodIndicesFrom(ps, j) == head + rest;
      AtAppend(ps, head, rest);
      assert At(ps, head) == (if IsGood(ps[j]) then [ps[j]] else []);
      GoodIndicesFromPick(ps, j + 1);
    }
  }

  lemma GoodIndicesPick(ps: seq<Props>)
    ensures At(ps, GoodIndices(ps)) == GoodData(ps)
  {
    GoodIndicesFromPick(ps, 0);
    assert ps[0..] == ps;
  }

  /** Filtering the valid points again changes nothing. */
  lemma GoodDataIdempotent(ps: seq<Props>)
    ensures GoodData(GoodData(ps)) == GoodData(ps)
  {
    Seqs.FilterIdempotent(ps, IsGood);
  }

  /** An `undefined` cholesterol value is not filtered out; an `undefined` poverty value is. */
  lemma UndefinedCholesterolKept(p: Props)
    ensures p.cholesterolPerc == Undef && IsDatum(p.povertyPerc) ==> IsGood(p)
    ensures p.povertyPerc == Undef ==> !IsGood(p)
  {
  }

  /** Every number on an axis of the valid points lies inside that axis's domain. */
  lemma {:induction false} DomainCoversPoints(g: seq<Props>, f: Field, i: nat)
    requires i < |g| && Get(g[i], f).Num?
    ensures Extent(ValuesOf(g, f)).lo.Some?
    ensures Extent(ValuesOf(g, f)).lo.value <= Get(g[i], f).r <= Extent(ValuesOf(g, f)).hi.value
  {
    assert ValuesOf(g, f)[i] == Num(Get(g[i], f).r);
  }

  /** The `id`s of the `properties` of the features a map brush published. */
  function PropertyIds(selected: seq<Geometry>): (ids: seq<Val>)
    ensures |ids| == |selected|
    ensures forall i :: 0 <= i < |selected| ==> ids[i] == selected[i].properties.id
  {
    seq(|selected|, i requires 0 <= i < |selected| => selected[i].properties.id)
  }

  /**
   * `noselection(selectedData, vis)`: all valid points for an empty
   * selection, otherwise the valid points whose `id` is among the
   * selected features' property ids, in `good_data` order.
   */
  function NoSelection(selected: seq<Geometry>, goodData: seq<Props>): (r: seq<Props>)
    ensures |selected| == 0 ==> r == goodData
    ensures forall i :: 0 <= i < |r| ==> r[i] in goodData
    ensures |selected| > 0 ==> forall i :: 0 <= i < |r| ==> r[i].id in PropertyIds(selected)
    ensures |selected| > 0 ==> forall i :: 0 <= i < |goodData| && goodData[i].id in PropertyIds(selected) ==> goodData[i] in r
  {
    if |selected| == 0 then goodData
    else
      var ids := PropertyIds(selected);
      Seqs.Filter(goodData, (p: Props) => p.id in ids)
  }

  class CholesterolScatter {
    /** The shared counties object the join fills in place. */
    const data: Counties
    const settings: Settings
    const width: real
    const height: real
    /**
     * `good_data`: references to `properties` objects of the shared
     * geometries, held as their positions in `data.geometries`. Reading
     * through them sees whatever a later join wrote into those objects.
     */
    var goodIdx: seq<nat>
    /** The x (secondary metric) and y (primary metric) scale domains. */
    var xDomain: Domain
    var yDomain: Domain
    var xTitle: string
    var yTitle: string
    /** The records the circles were placed from at the last `renderVis`, in order. */
    var drawn: seq<Props>

    /** Every reference in `good_data` is to one of the geometries. */
    predicate Valid()
      reads this`goodIdx
    {
      forall k :: 0 <= k < |goodIdx| ==> goodIdx[k] < data.geometries.Length
    }

    /** The records `good_data` refers to, as they are now. */
    function GoodRecords(): (ps: seq<Props>)
      reads this`goodIdx, data, data.geometries
      requires Valid()
      ensures |ps| == |goodIdx|
      ensures forall k :: 0 <= k < |ps| ==> ps[k] == data.geometries[goodIdx[k]].properties
    {
      At(data.Properties(), goodIdx)
    }

    /** The configuration part of the constructor, which starts with all property records as `good_data`. */
    constructor (cfg: Config, data: Counties)
      ensures this.data == data
      ensures settings == Settle(cfg, 500.0, 600.0, DefaultMargin)
      ensures (width, height) == InnerSize(settings)
      ensures cfg == Unconfigured ==> width == 445.0 && height == 555.0
      ensures Valid() && GoodRecords() == data.Properties()
      ensures xDomain == Domain(None, None) && yDomain == Domain(None, None)
      ensures xTitle == "" && yTitle == "" && drawn == []
    {
      this.data := data;
      settings := Settle(cfg, 500.0, 600.0, DefaultMargin);
      width := InnerSize(Settle(cfg, 500.0, 600.0, DefaultMargin)).0;
      height := InnerSize(Settle(cfg, 500.0, 600.0, DefaultMargin)).1;
      goodIdx := seq(data.geometries.Length, i requires 0 <= i => i as nat);
      xDomain, yDomain := Domain(None, None), Domain(None, None);
      xTitle, yTitle := "", "";
      drawn := [];
    }

    /** `initVis`: both axis titles need their descriptor, then a first `updateVis`. */
    method InitVis() returns (ok: bool)
      requires Valid()
      modifies this
      ensures Valid()
      ensures ok <==> data.feature1.Some? && data.feature2.Some?
      ensures ok ==> goodIdx == GoodIndices(data.Properties()) && GoodRecords() == GoodData(data.Properties())
      ensures ok ==> xDomain == Extent(ValuesOf(GoodData(data.Properties()), HighCholesterol))
      ensures ok ==> yDomain == Extent(ValuesOf(GoodData(data.Properties()), PovertyPerc))
      ensures ok ==> xTitle == data.feature2.value.featureName && yTitle == data.feature1.value.featureName
      ensures ok ==> drawn == GoodData(data.Properties())
      ensures data.feature2.None? ==> unchanged(this)
      ensures data.feature2.Some? && data.feature1.None? ==>
        xTitle == data.feature2.value.featureName && yTitle == old(yTitle) && goodIdx == old(goodIdx) &&
        xDomain == old(xDomain) && yDomain == old(yDomain) && drawn == old(drawn)
    {
      if data.feature2.None? {
        return false;  // TypeError: reading feature_name of undefined
      }
      xTitle := data.feature2.value.featureName;
      if data.feature1.None? {
        return false;  // TypeError: reading feature_name of undefined
      }
      yTitle := data.feature1.value.featureName;
      ok := UpdateVis();
    }

    /**
     * The first part of `updateVis`: `good_data` becomes the valid
     * points, and each domain is set first to `[0, max]` and then to
     * `[min, max]` over them.
     */
    method Refilter()
      modifies this`goodIdx, this`xDomain, this`yDomain
      ensures Valid()
      ensures goodIdx == GoodIndices(data.Properties()) && GoodRecords() == GoodData(data.Properties())
      ensures xDomain == Extent(ValuesOf(GoodData(data.Properties()), HighCholesterol))
      ensures yDomain == Extent(ValuesOf(GoodData(data.Properties()), PovertyPerc))
    {
      var ps := data.Properties();
      goodIdx := GoodIndices(ps);
      GoodIndicesPick(ps);
      var good := GoodData(ps);
      var xs := Numbers(ValuesOf(good, HighCholesterol));
      var ys := Numbers(ValuesOf(good, PovertyPerc));
      xDomain := Domain(Some(0.0), MaxOf(xs));
      yDomain := Domain(Some(0.0), MaxOf(ys));
      xDomain := Domain(MinOf(xs), MaxOf(xs));
      yDomain := Domain(MinOf(ys), MaxOf(ys));
    }

    /** `updateVis`: refilter and rescale, then retitle both axes and redraw. */
    method UpdateVis() returns (ok: bool)
      modifies this
      ensures Valid()
      ensures goodIdx == GoodIndices(data.Properties()) && GoodRecords() == GoodData(data.Properties())
      ensures xDomain == Extent(ValuesOf(GoodData(data.Properties()), HighCholesterol))
      ensures yDomain == Extent(ValuesOf(GoodData(data.Properties()), PovertyPerc))
      ensures ok <==> data.feature1.Some? && data.feature2.Some?
      ensures ok ==> xTitle == data.feature2.value.featureName && yTitle == data.feature1.value.featureName
      ensures ok ==> drawn == GoodData(data.Properties())
      ensures !ok ==> drawn == old(drawn)
      ensures data.feature2.None? ==> xTitle == old(xTitle) && yTitle == old(yTitle)
      ensures data.feature2.Some? && data.feature1.None? ==> xTitle == data.feature2.value.featureName && yTitle == old(yTitle)
    {
      Refilter();
      if data.feature2.None? {
        return false;  // TypeError: reading feature_name of undefined
      }
      xTitle := data.feature2.value.featureName;
      if data.feature1.None? {
        return false;  // TypeError: reading feature_name of undefined
      }
      yTitle := data.feature1.value.featureName;
      RenderVis(None);
      ok := true;
    }

    /**
     * `renderVis(selectedData)`: the circles are bound to `good_data`
     * whatever the selection, and placed from the records' current values.
     */
    method RenderVis(selected: Option<seq<Selected>>)
      requires Valid()
      modifies this`drawn
      ensures drawn == GoodRecords()
    {
      drawn := GoodRecords();
    }

    /**
     * The brush's `brush end` handler; `points[i]` is the scaled position
     * of `GoodRecords()[i]`. A cleared brush publishes `null`.
     */
    function Brushed(selection: Option<Rect>, points: seq<Point>): (pub: Publication)
      reads this`goodIdx, data, data.geometries
      requires Valid() && |points| == |goodIdx|
      ensures pub.Publish? && pub.channel == BrushChannel
      ensures pub.payload.None? <==> selection.None?
      ensures selection.Some? ==> forall e :: e in pub.payload.value <==>
        exists i :: 0 <= i < |goodIdx| && e == Record(GoodRecords()[i]) && Within(points[i], selection.value)
      ensures selection.Some? ==> pub == Publish(BrushChannel, Some(Records(InRect(GoodRecords(), points, selection.value))))
    {
      if selection.None? then Publish(BrushChannel, None)
      else
        var hits := InRect(GoodRecords(), points, selection.value);
        assert forall e :: e in Records(hits) <==> e.Record? && e.p in hits;
        Publish(BrushChannel, Some(Records(hits)))
    }
  }
}

=== FILE: choropleth.dfy ===
/**
 * What the two county maps compute before drawing: the ids an incoming
 * selection highlights, the fill, stroke and tooltip of each county, and
 * the colour domain and legend stops that leave out the `-1` sentinel.
 * The poverty map reads `poverty_perc`, the cholesterol map
 * `percent_high_cholesterol`; everything else is shared.
 */
module Choropleth {
  import opened JsValues
  import opened Dataset
  import opened Brush
  import Seqs

  /** `(selectedData || []).map(element => element.id)`. */
  function SelectedIds(selected: Option<seq<Selected>>): (ids: seq<Val>)
    ensures selected.None? ==> ids == []
    ensures selected.Some? ==> |ids| == |selected.value|
    ensures selected.Some? ==> forall i :: 0 <= i < |ids| ==> ids[i] == ElementId(selected.value[i])
  {
    var elements := if selected.Some? then selected.value else [];
    seq(|elements|, i requires 0 <= i < |elements| => ElementId(elements[i]))
  }

  /** `features.map(f => f.properties.id)`. */
  function IdsOf(ps: seq<Props>): (ids: seq<Val>)
    ensures |ids| == |ps|
    ensures forall i :: 0 <= i < |ps| ==> ids[i] == ps[i].id
  {
    seq(|ps|, i requires 0 <= i < |ps| => ps[i].id)
  }

  /**
   * `highlightedIds`: the ids of the counties whose id is among the
   * selected ids, in county order.
   */
  function HighlightedIds(ps: seq<Props>, selectedIds: seq<Val>): (h: seq<Val>)
    ensures |h| <= |ps|
    ensures forall v :: v in h <==> v in selectedIds && v in IdsOf(ps)
  {
    HighlightedIdsIff(ps, selectedIds);
    IdsOf(Seqs.Filter(ps, (p: Props) => p.id in selectedIds))
  }

  lemma HighlightedIdsIff(ps: seq<Props>, selectedIds: seq<Val>)
    ensures forall v :: v in IdsOf(Seqs.Filter(ps, (p: Props) => p.id in selectedIds)) <==> v in selectedIds && v in IdsOf(ps)
  {
    var keep := (p: Props) => p.id in selectedIds;
    var kept := Seqs.Filter(ps, keep);
    forall v
      ensures v in IdsOf(kept) <==> v in selectedIds && v in IdsOf(ps)
    {
      if v in IdsOf(kept) {
        var i :| 0 <= i < |kept| && IdsOf(kept)[i] == v;
        assert kept[i] in ps && keep(kept[i]);
        var j :| 0 <= j < |ps| && ps[j] == kept[i];
        assert IdsOf(ps)[j] == v;
      }
      if v in selectedIds && v in IdsOf(ps) {
        var j :| 0 <= j < |ps| && IdsOf(ps)[j] == v;
        assert keep(ps[j]);
        assert ps[j] in kept;
        var i :| 0 <= i < |kept| && kept[i] == ps[j];
        assert IdsOf(kept)[i] == v;
      }
    }
  }

  /** A county's fill: the colour scale applied to its value, or the stripe pattern. */
  datatype Paint = Scaled(value: Val) | Stripe

  /** A county's tooltip body: its value (with the descriptor's suffix) or "No data available". */
  datatype Tip = Value(value: Val) | NoData

  datatype CountyStyle = CountyStyle(fill: Paint, stroke: string, strokeWidth: string, tooltip: Tip)

  /** The per-county attribute callbacks of the map's path join. */
  function Style(p: Props, f: Field, highlighted: seq<Val>): (s: CountyStyle)
    ensures s.fill.Stripe? <==> !Truthy(Get(p, f))
    ensures s.tooltip.NoData? <==> s.fill.Stripe?
    ensures s.fill.Scaled? ==> s.fill.value == Get(p, f) && s.tooltip == Value(Get(p, f))
    ensures s.stroke in {"#333", "none"} && (s.stroke == "#333" <==> p.id in highlighted)
    ensures s.strokeWidth in {"2px", "1px"} && (s.strokeWidth == "2px" <==> Str(p.name) in highlighted)
  {
    var v := Get(p, f);
    CountyStyle(
      if Truthy(v) then Scaled(v) else Stripe,
      if p.id in highlighted then "#333" else "none",
      if Str(p.name) in highlighted then "2px" else "1px",
      if Truthy(v) then Value(v) else NoData)
  }

  /**
   * `renderVis(selectedData)` on the maps: the style of every county, in
   * county order, for the given selection.
   */
  function Draw(ps: seq<Props>, f: Field, selected: Option<seq<Selected>>): (styles: seq<CountyStyle>)
    ensures |styles| == |ps|
    ensures forall i :: 0 <= i < |ps| ==> (styles[i].stroke == "#333" <==> ps[i].id in SelectedIds(selected))
    ensures forall i :: 0 <= i < |ps| ==>
      (styles[i].strokeWidth == "2px" <==> Str(ps[i].name) in SelectedIds(selected) && Str(ps[i].name) in IdsOf(ps))
    ensures forall i :: 0 <= i < |ps| ==> styles[i] == Style(ps[i], f, HighlightedIds(ps, SelectedIds(selected)))
  {
    var h := HighlightedIds(ps, SelectedIds(selected));
    assert forall i :: 0 <= i < |ps| ==> IdsOf(ps)[i] == ps[i].id;
    seq(|ps|, i requires 0 <= i < |ps| => Style(ps[i], f, h))
  }

  /** A missing selection (`null`/`undefined`) draws exactly as the empty one, and strokes no county. */
  lemma MissingSelectionIsEmpty(ps: seq<Props>, f: Field)
    ensures Draw(ps, f, None) == Draw(ps, f, Some([]))
    ensures forall i :: 0 <= i < |ps| ==> Draw(ps, f, None)[i].stroke == "none"
  {
  }

  /**
   * Only the set of selected ids matters: selections with the same ids
   * (in any order, with any repetition) draw the same map.
   */
  lemma DrawDependsOnIdSet(ps: seq<Props>, f: Field, a: Option<seq<Selected>>, b: Option<seq<Selected>>)
    requires forall v :: v in SelectedIds(a) <==> v in SelectedIds(b)
    ensures Draw(ps, f, a) == Draw(ps, f, b)
  {
    var ha := HighlightedIds(ps, SelectedIds(a));
    var hb := HighlightedIds(ps, SelectedIds(b));
    assert forall v :: v in ha <==> v in hb;
    forall i | 0 <= i < |ps|
      ensures Draw(ps, f, a)[i] == Draw(ps, f, b)[i]
    {
      assert Style(ps[i], f, ha) == Style(ps[i], f, hb);
    }
  }

  /**
   * `stroke-width` tests the county's name against the id list, so while
   * no county id is a string no county is ever drawn at 2px.
   */
  lemma NumericIdsNeverThick(ps: seq<Props>, f: Field, selected: Option<seq<Selected>>)
    requires forall i :: 0 <= i < |ps| ==> !ps[i].id.Str?
    ensures forall i :: 0 <= i < |ps| ==> Draw(ps, f, selected)[i].strokeWidth == "1px"
  {
  }

  /** Truthiness decides the fill: the `-1` sentinel is coloured, `0`, `undefined` and `NaN` are striped. */
  lemma SentinelIsColoured(p: Props, f: Field, highlighted: seq<Val>)
    ensures Get(p, f) == Num(Sentinel) ==> Style(p, f, highlighted).fill == Scaled(Num(Sentinel))
    ensures Get(p, f) in {Num(0.0), Undef, NaN} ==> Style(p, f, highlighted).fill == Stripe
    ensures Get(p, f) in {Num(0.0), Undef, NaN} ==> Style(p, f, highlighted).tooltip == NoData
  {
  }

  /** The extent accessor: the sentinel reads as `undefined`, which d3.extent skips. */
  function NoSentinel(v: Val): (r: Val)
    ensures r.Num? <==> IsDatum(v)
    ensures v != Num(Sentinel) ==> r == v
  {
    if v == Num(Sentinel) then Undef else v
  }

  /** `d3.extent(geometries, d => value !== -1 ? value : undefined)`. */
  function ColorDomain(ps: seq<Props>, f: Field): (d: Domain)
    ensures d.lo.Some? <==> d.hi.Some?
    ensures d.lo.Some? <==> exists i :: 0 <= i < |ps| && IsDatum(Get(ps[i], f))
    ensures d.lo.Some? ==> d.lo.value != Sentinel && d.hi.value != Sentinel && d.lo.value <= d.hi.value
    ensures d.lo.Some? ==> exists i :: 0 <= i < |ps| && Get(ps[i], f) == Num(d.lo.value)
    ensures d.hi.Some? ==> exists i :: 0 <= i < |ps| && Get(ps[i], f) == Num(d.hi.value)
    ensures d.lo.Some? ==> forall i :: 0 <= i < |ps| && IsDatum(Get(ps[i], f)) ==> d.lo.value <= Get(ps[i], f).r <= d.hi.value
  {
    var vs := seq(|ps|, i requires 0 <= i < |ps| => NoSentinel(Get(ps[i], f)));
    forall x | Num(x) in vs
      ensures x != Sentinel && exists i :: 0 <= i < |ps| && Get(ps[i], f) == Num(x)
    {
      var i :| 0 <= i < |vs| && vs[i] == Num(x);
      assert Get(ps[i], f) == Num(x);
    }
    forall i | 0 <= i < |ps| && IsDatum(Get(ps[i], f))
      ensures Get(ps[i], f) in vs
    {
      assert vs[i] == Get(ps[i], f);
    }
    Extent(vs)
  }

  /** One stop of the legend gradient. */
  datatype Stop = Stop(color: string, value: Option<real>, offset: int)

  /** `legendStops`: the low colour at offset 0 and the high colour at offset 100, carrying the domain ends. */
  function LegendStops(d: Domain, low: string, high: string): (stops: seq<Stop>)
    ensures |stops| == 2
    ensures stops[0].offset == 0 && stops[0].color == low && stops[0].value == d.lo
    ensures stops[1].offset == 100 && stops[1].color == high && stops[1].value == d.hi
  {
    [Stop(low, d.lo, 0), Stop(high, d.hi, 100)]
  }
}

=== FILE: consolidation.dfy ===
/**
 * The data-join of main.js: the metric-name to column chains of
 * `updateVisualizations`, the descriptor lookup, and what
 * `dataConsolidation` does to the county geometries, as functions.
 *
 * `dataConsolidation(d1, d2, id1, id2)` visits every geometry and, for
 * each health row whose `cnty_fips` equals the geometry id, writes
 * `+d1[i]` into `poverty_perc`, `+d2[i]` into `percent_high_cholesterol`
 * and the FIPS into `id`. A column is `undefined` when its metric name is
 * not one of the fifteen the chains know; reading `undefined[i]` then
 * throws a TypeError at the first matching row, which ends the whole
 * join: geometries already visited keep their new properties, the
 * current one keeps what was written before the throw, and the rest are
 * not visited.
 */
module Consolidation {
  import opened JsValues
  import opened Dataset

  /** The fifteen metric names both selection chains recognise. */
  const MetricNames: set<string> := {
    "poverty_perc", "median_household_income", "education_less_than_high_school_percent",
    "air_quality", "park_access", "percent_inactive", "percent_smoking", "elderly_percentage",
    "number_of_hospitals", "number_of_primary_care_physicians", "percent_no_heath_insurance",
    "percent_high_blood_pressure", "percent_coronary_heart_disease", "percent_stroke",
    "percent_high_cholesterol"
  }

  /** The `primary` chain: `newData1`, left `undefined` (None) for an unknown name. */
  function PrimaryColumn(health: seq<HealthRow>, name: string): (c: Option<Column>)
    ensures c.Some? <==> name in MetricNames
    ensures c.Some? ==> c.value == ColumnOf(health, name)
  {
    if name == "poverty_perc" then Some(ColumnOf(health, "poverty_perc"))
    else if name == "median_household_income" then Some(ColumnOf(health, "median_household_income"))
    else if name == "education_less_than_high_school_percent" then Some(ColumnOf(health, "education_less_than_high_school_percent"))
    else if name == "air_quality" then Some(ColumnOf(health, "air_quality"))
    else if name == "park_access" then Some(ColumnOf(health, "park_access"))
    else if name == "percent_inactive" then Some(ColumnOf(health, "percent_inactive"))
    else if name == "percent_smoking" then Some(ColumnOf(health, "percent_smoking"))
    else if name == "elderly_percentage" then Some(ColumnOf(health, "elderly_percentage"))
    else if name == "number_of_hospitals" then Some(ColumnOf(health, "number_of_hospitals"))
    else if name == "number_of_primary_care_physicians" then Some(ColumnOf(health, "number_of_primary_care_physicians"))
    else if name == "percent_no_heath_insurance" then Some(ColumnOf(health, "percent_no_heath_insurance"))
    else if name == "percent_high_blood_pressure" then Some(ColumnOf(health, "percent_high_blood_pressure"))
    else if name == "percent_coronary_heart_disease" then Some(ColumnOf(health, "percent_coronary_heart_disease"))
    else if name == "percent_stroke" then Some(ColumnOf(health, "percent_stroke"))
    else if name == "percent_high_cholesterol" then Some(ColumnOf(health, "percent_high_cholesterol"))
    else None
  }

  /** The `secondary` chain: the same names, tested in a different order. */
  function SecondaryColumn(health: seq<HealthRow>, name: string): (c: Option<Column>)
    ensures c.Some? <==> name in MetricNames
    ensures c.Some? ==> c.value == ColumnOf(health, name)
  {
    if name == "percent_high_cholesterol" then Some(ColumnOf(health, "percent_high_cholesterol"))
    else if name == "poverty_perc" then Some(ColumnOf(health, "poverty_perc"))
    else if name == "median_household_income" then Some(ColumnOf(health, "median_household_income"))
    else if name == "education_less_than_high_school_percent" then Some(ColumnOf(health, "education_less_than_high_school_percent"))
    else if name == "air_quality" then Some(ColumnOf(health, "air_quality"))
    else if name == "park_access" then Some(ColumnOf(health, "park_access"))
    else if name == "percent_inactive" then Some(ColumnOf(health, "percent_inactive"))
    else if name == "percent_smoking" then Some(ColumnOf(health, "percent_smoking"))
    else if name == "elderly_percentage" then Some(ColumnOf(health, "elderly_percentage"))
    else if name == "number_of_hospitals" then Some(ColumnOf(health, "number_of_hospitals"))
    else if name == "number_of_primary_care_physicians" then Some(ColumnOf(health, "number_of_primary_care_physicians"))
    else if name == "percent_no_heath_insurance" then Some(ColumnOf(health, "percent_no_heath_insurance"))
    else if name == "percent_high_blood_pressure" then Some(ColumnOf(health, "percent_high_blood_pressure"))
    else if name == "percent_coronary_heart_disease" then Some(ColumnOf(health, "percent_coronary_heart_disease"))
    else if name == "percent_stroke" then Some(ColumnOf(health, "percent_stroke"))
    else None
  }

  /** Both chains select the same column for every name, known or not. */
  lemma ChainsAgree(health: seq<HealthRow>, name: string)
    ensures SecondaryColumn(health, name) == PrimaryColumn(health, name)
  {
  }

  /** `features.find(d => d.feature_id === id)`. */
  function FindDescriptor(features: seq<Descriptor>, id: string): (d: Option<Descriptor>)
    ensures d.None? <==> forall i :: 0 <= i < |features| ==> features[i].featureId != id
    ensures d.Some? ==> exists i :: 0 <= i < |features| && features[i] == d.value && d.value.featureId == id
                                    && forall j :: 0 <= j < i ==> features[j].featureId != id
  {
    if |features| == 0 then None
    else if features[0].featureId == id then Some(features[0])
    else
      var rest := FindDescriptor(features[1..], id);
      assert forall i :: 1 <= i < |features| ==> features[i] == features[1..][i - 1];
      if rest.Some? then
        var i :| 0 <= i < |features[1..]| && features[1..][i] == rest.value && rest.value.featureId == id
                 && forall j :: 0 <= j < i ==> features[1..][j].featureId != id;
        assert features[i + 1] == rest.value;
        rest
      else rest
  }

  /** Every column handed to the join is `undefined` or has one cell per health row. */
  predicate Fits(c: Option<Column>, health: seq<HealthRow>) {
    c.Some? ==> |c.value| == |health|
  }

  /** The three writes of a matching row when neither column is missing. */
  function Written(p: Props, c1: Column, c2: Column, health: seq<HealthRow>, i: nat): (q: Props)
    requires i < |health| && |c1| == |health| && |c2| == |health|
    ensures q.name == p.name
    ensures q.povertyPerc == ToNumber(c1[i]) && q.cholesterolPerc == ToNumber(c2[i])
    ensures q.id == Num(health[i].cntyFips as real)
  {
    p.(povertyPerc := ToNumber(c1[i]), cholesterolPerc := ToNumber(c2[i]), id := Num(health[i].cntyFips as real))
  }

  /**
   * The body of the `if` for a matching row `i`: the new geometry and
   * whether a TypeError was thrown (a missing `d1` throws before any
   * write, a missing `d2` after `poverty_perc` was written).
   */
  function WriteRow(g: Geometry, health: seq<HealthRow>, d1: Option<Column>, d2: Option<Column>, i: nat): (r: (Geometry, bool))
    requires i < |health| && Fits(d1, health) && Fits(d2, health)
    ensures r.0.id == g.id && r.0.properties.name == g.properties.name
    ensures r.1 <==> d1.None? || d2.None?
  {
    if d1.None? then (g, true)
    else if d2.None? then (g.(properties := g.properties.(povertyPerc := ToNumber(d1.value[i]))), true)
    else (g.(properties := Written(g.properties, d1.value, d2.value, health, i)), false)
  }

  /** The inner `for` over health rows `[0..n)`, stopping at a throw. */
  function JoinRows(g: Geometry, health: seq<HealthRow>, d1: Option<Column>, d2: Option<Column>, n: nat): (r: (Geometry, bool))
    requires n <= |health| && Fits(d1, health) && Fits(d2, health)
    ensures r.0.id == g.id && r.0.properties.name == g.properties.name
    ensures r.1 <==> (d1.None? || d2.None?) && exists i :: 0 <= i < n && health[i].cntyFips == g.id
    ensures (forall i :: 0 <= i < n ==> health[i].cntyFips != g.id) ==> r == (g, false)
  {
    if n == 0 then (g, false)
    else
      var prev := JoinRows(g, health, d1, d2, n - 1);
      if prev.1 || g.id != health[n - 1].cntyFips then prev
      else WriteRow(prev.0, health, d1, d2, n - 1)
  }

  /** What the join does to one geometry, and whether it threw there. */
  function JoinGeometry(g: Geometry, health: seq<HealthRow>, d1: Option<Column>, d2: Option<Column>): (r: (Geometry, bool))
    requires Fits(d1, health) && Fits(d2, health)
    ensures r.0.id == g.id && r.0.properties.name == g.properties.name
    ensures r.1 <==> (d1.None? || d2.None?) && exists i :: 0 <= i < |health| && health[i].cntyFips == g.id
    ensures (forall i :: 0 <= i < |health| ==> health[i].cntyFips != g.id) ==> r == (g, false)
  {
    JoinRows(g, health, d1, d2, |health|)
  }

  /**
   * The `forEach` from geometry `k` on, over the whole sequence: each
   * geometry is replaced by its joined version, and the walk ends at the
   * first throw. The flag says whether it threw.
   */
  function RunFrom(gs: seq<Geometry>, k: nat, health: seq<HealthRow>, d1: Option<Column>, d2: Option<Column>): (r: (seq<Geometry>, bool))
    requires k <= |gs| && Fits(d1, health) && Fits(d2, health)
    ensures |r.0| == |gs|
    decreases |gs| - k
  {
    if k == |gs| then (gs, false)
    else
      var (g, thrown) := JoinGeometry(gs[k], health, d1, d2);
      if thrown then (gs[k := g], true)
      else RunFrom(gs[k := g], k + 1, health, d1, d2)
  }

  /** `dataConsolidation` on the geometries `gs`: the new geometries, and whether it threw. */
  function Consolidate(gs: seq<Geometry>, health: seq<HealthRow>, d1: Option<Column>, d2: Option<Column>): (r: (seq<Geometry>, bool))
    requires Fits(d1, health) && Fits(d2, health)
    ensures |r.0| == |gs|
  {
    RunFrom(gs, 0, health, d1, d2)
  }

  /** The walk from `k` never touches the geometries before `k`. */
  lemma {:induction false} RunFromKeepsPrefix(gs: seq<Geometry>, k: nat, health: seq<HealthRow>, d1: Option<Column>, d2: Option<Column>, j: nat)
    requires j < k <= |gs| && Fits(d1, health) && Fits(d2, health)
    ensures RunFrom(gs, k, health, d1, d2).0[j] == gs[j]
    decreases |gs| - k
  {
    if k < |gs| && !JoinGeometry(gs[k], health, d1, d2).1 {
      RunFromKeepsPrefix(gs[k := JoinGeometry(gs[k], health, d1, d2).0], k + 1, health, d1, d2, j);
    }
  }

  /**
   * The join never adds, drops or reorders geometries: each keeps its
   * FIPS id and its name, whatever the columns.
   */
  lemma {:induction false} RunFromKeepsGeometries(gs: seq<Geometry>, k: nat, health: seq<HealthRow>, d1: Option<Column>, d2: Option<Column>, j: nat)
    requires k <= |gs| && j < |gs| && Fits(d1, health) && Fits(d2, health)
    ensures RunFrom(gs, k, health, d1, d2).0[j].id == gs[j].id
    ensures RunFrom(gs, k, health, d1, d2).0[j].properties.name == gs[j].properties.name
    decreases |gs| - k
  {
    if k < |gs| && !JoinGeometry(gs[k], health, d1, d2).1 {
      RunFromKeepsGeometries(gs[k := JoinGeometry(gs[k], health, d1, d2).0], k + 1, health, d1, d2, j);
    }
  }

  lemma ConsolidateKeepsGeometries(gs: seq<Geometry>, health: seq<HealthRow>, d1: Option<Column>, d2: Option<Column>, j: nat)
    requires j < |gs| && Fits(d1, health) && Fits(d2, health)
    ensures |Consolidate(gs, health, d1, d2).0| == |gs|
    ensures Consolidate(gs, health, d1, d2).0[j].id == gs[j].id
    ensures Consolidate(gs, health, d1, d2).0[j].properties.name == gs[j].properties.name
  {
    RunFromKeepsGeometries(gs, 0, health, d1, d2, j);
  }

  /** The walk from `k` throws exactly when a column is missing and some geometry from `k` on has a matching row. */
  lemma {:induction false} RunFromThrowsIff(gs: seq<Geometry>, k: nat, health: seq<HealthRow>, d1: Option<Column>, d2: Option<Column>)
    requires k <= |gs| && Fits(d1, health) && Fits(d2, health)
    ensures RunFrom(gs, k, health, d1, d2).1 <==>
              (d1.None? || d2.None?) &&
              exists j, i :: k <= j < |gs| && 0 <= i < |health| && health[i].cntyFips == gs[j].id
    decreases |gs| - k
  {
    if k < |gs| {
      var (g, thrown) := JoinGeometry(gs[k], health, d1, d2);
      if !thrown {
        var gs' := gs[k := g];
        RunFromThrowsIff(gs', k + 1, health, d1, d2);
        assert forall j :: k < j < |gs| ==> gs'[j] == gs[j];
      }
    }
  }

  /**
   * The join throws exactly when a column is missing and some geometry
   * has a matching health row.
   */
  lemma ConsolidateThrowsIff(gs: seq<Geometry>, health: seq<HealthRow>, d1: Option<Column>, d2: Option<Column>)
    requires Fits(d1, health) && Fits(d2, health)
    ensures Consolidate(gs, health, d1, d2).1 <==>
              (d1.None? || d2.None?) &&
              exists j, i :: 0 <= j < |gs| && 0 <= i < |health| && health[i].cntyFips == gs[j].id
  {
    RunFromThrowsIff(gs, 0, health, d1, d2);
  }

  /** Once a row has thrown, later rows are never reached. */
  lemma {:induction false} JoinRowsStopsAtThrow(g: Geometry, health: seq<HealthRow>, d1: Option<Column>, d2: Option<Column>, n: nat, m: nat)
    requires n <= m <= |health| && Fits(d1, health) && Fits(d2, health)
    requires JoinRows(g, health, d1, d2, n).1
    ensures JoinRows(g, health, d1, d2, m) == JoinRows(g, health, d1, d2, n)
  {
    if m > n {
      JoinRowsStopsAtThrow(g, health, d1, d2, n, m - 1);
    }
  }

  /** The last row `i < n` whose `cnty_fips` is `id`. */
  function LastMatch(id: int, health: seq<HealthRow>, n: nat): (m: Option<nat>)
    requires n <= |health|
    ensures m.None? <==> forall i :: 0 <= i < n ==> health[i].cntyFips != id
    ensures m.Some? ==> m.value < n && health[m.value].cntyFips == id &&
                        forall i :: m.value < i < n ==> health[i].cntyFips != id
  {
    if n == 0 then None
    else if health[n - 1].cntyFips == id then Some(n - 1)
    else LastMatch(id, health, n - 1)
  }

  /**
   * With both columns present the join never throws, and a geometry ends
   * up with the values of its LAST matching row; a geometry without a
   * matching row is left exactly as it was.
   */
  lemma {:induction false} JoinRowsTakesLastMatch(g: Geometry, health: seq<HealthRow>, c1: Column, c2: Column, n: nat)
    requires n <= |health| && |c1| == |health| && |c2| == |health|
    ensures JoinRows(g, health, Some(c1), Some(c2), n) ==
      (match LastMatch(g.id, health, n)
       case None => (g, false)
       case Some(i) => (g.(properties := Written(g.properties, c1, c2, health, i)), false))
  {
    if n > 0 {
      JoinRowsTakesLastMatch(g, health, c1, c2, n - 1);
    }
  }

  /** Running the join on a geometry a second time changes nothing, whatever the columns. */
  lemma {:induction false} JoinGeometryIdempotent(g: Geometry, health: seq<HealthRow>, d1: Option<Column>, d2: Option<Column>)
    requires Fits(d1, health) && Fits(d2, health)
    ensures JoinGeometry(JoinGeometry(g, health, d1, d2).0, health, d1, d2) == JoinGeometry(g, health, d1, d2)
  {
    var r := JoinGeometry(g, health, d1, d2);
    if d1.Some? && d2.Some? {
      JoinRowsTakesLastMatch(g, health, d1.value, d2.value, |health|);
      JoinRowsTakesLastMatch(r.0, health, d1.value, d2.value, |health|);
    } else {
      FirstThrowIdempotent(g, health, d1, d2, |health|);
    }
  }

  /** With a column missing, the join of rows `[0..n)` stops at the first match, and repeating it gives the same. */
  lemma {:induction false} FirstThrowIdempotent(g: Geometry, health: seq<HealthRow>, d1: Option<Column>, d2: Option<Column>, n: nat)
    requires n <= |health| && Fits(d1, health) && Fits(d2, health)
    requires d1.None? || d2.None?
    ensures JoinRows(JoinRows(g, health, d1, d2, n).0, health, d1, d2, n) == JoinRows(g, health, d1, d2, n)
  {
    if n > 0 {
      var prev := JoinRows(g, health, d1, d2, n - 1);
      if prev.1 {
        FirstThrowIdempotent(g, health, d1, d2, n - 1);
        JoinRowsStopsAtThrow(prev.0, health, d1, d2, n - 1, n);
      } else if g.id == health[n - 1].cntyFips {
        // the first match is row n - 1: rows before it leave `g` alone
        var r := JoinRows(g, health, d1, d2, n);
        assert prev == (g, false);
        assert JoinRows(r.0, health, d1, d2, n - 1) == (r.0, false);
      } else {
        FirstThrowIdempotent(g, health, d1, d2, n - 1);
      }
    }
  }

  /** Re-running the walk from `k` on its own result changes nothing. */
  lemma {:induction false} RunFromIdempotent(gs: seq<Geometry>, k: nat, health: seq<HealthRow>, d1: Option<Column>, d2: Option<Column>)
    requires k <= |gs| && Fits(d1, health) && Fits(d2, health)
    ensures RunFrom(RunFrom(gs, k, health, d1, d2).0, k, health, d1, d2) == RunFrom(gs, k, health, d1, d2)
    decreases |gs| - k
  {
    if k < |gs| {
      var (g, thrown) := JoinGeometry(gs[k], health, d1, d2);
      JoinGeometryIdempotent(gs[k], health, d1, d2);
      if !thrown {
        var gs' := gs[k := g];
        var r := RunFrom(gs', k + 1, health, d1, d2).0;
        RunFromIdempotent(gs', k + 1, health, d1, d2);
        RunFromKeepsPrefix(gs', k + 1, health, d1, d2, k);
        assert r[k] == g && r[k := g] == r;
        assert JoinGeometry(r[k], health, d1, d2) == (g, false);
        assert RunFrom(r, k, health, d1, d2) == RunFrom(r, k + 1, health, d1, d2);
      } else {
        var gs' := gs[k := g];
        assert gs'[k] == g && gs'[k := g] == gs';
      }
    }
  }

  /** `dataConsolidation` is idempotent: a second call with the same arguments leaves the same state and outcome. */
  lemma ConsolidateIdempotent(gs: seq<Geometry>, health: seq<HealthRow>, d1: Option<Column>, d2: Option<Column>)
    requires Fits(d1, health) && Fits(d2, health)
    ensures Consolidate(Consolidate(gs, health, d1, d2).0, health, d1, d2) == Consolidate(gs, health, d1, d2)
  {
    RunFromIdempotent(gs, 0, health, d1, d2);
  }

  /** The geometry `g` after the join, when neither column is missing. */
  function Joined(g: Geometry, health: seq<HealthRow>, c1: Column, c2: Column): (r: Geometry)
    requires |c1| == |health| && |c2| == |health|
    ensures r.id == g.id && r.properties.name == g.properties.name
    ensures LastMatch(g.id, health, |health|).None? ==> r == g
    ensures LastMatch(g.id, health, |health|).Some? ==>
      var i := LastMatch(g.id, health, |health|).value;
      r.properties.povertyPerc == ToNumber(c1[i]) && r.properties.cholesterolPerc == ToNumber(c2[i]) && r.properties.id == Num(g.id as real)
  {
    match LastMatch(g.id, health, |health|)
    case None => g
    case Some(i) => g.(properties := Written(g.properties, c1, c2, health, i))
  }

  /** With both columns present the walk from `k` never throws and joins every geometry from `k` on. */
  lemma {:induction false} RunFromJoinsEveryGeometry(gs: seq<Geometry>, k: nat, health: seq<HealthRow>, c1: Column, c2: Column, j: nat)
    requires k <= |gs| && j < |gs| && |c1| == |health| && |c2| == |health|
    ensures !RunFrom(gs, k, health, Some(c1), Some(c2)).1
    ensures RunFrom(gs, k, health, Some(c1), Some(c2)).0[j] == if j < k then gs[j] else Joined(gs[j], health, c1, c2)
    decreases |gs| - k
  {
    if k < |gs| {
      JoinRowsTakesLastMatch(gs[k], health, c1, c2, |health|);
      RunFromJoinsEveryGeometry(gs[k := Joined(gs[k], health, c1, c2)], k + 1, health, c1, c2, j);
    }
  }

  /**
   * With both columns present, `dataConsolidation` does not throw, and
   * every geometry takes its last matching row's values, or is left
   * untouched when no row matches; positions are kept.
   */
  lemma ConsolidateJoinsEveryGeometry(gs: seq<Geometry>, health: seq<HealthRow>, c1: Column, c2: Column, j: nat)
    requires |c1| == |health| && |c2| == |health| && j < |gs|
    ensures !Consolidate(gs, health, Some(c1), Some(c2)).1
    ensures Consolidate(gs, health, Some(c1), Some(c2)).0[j] == Joined(gs[j], health, c1, c2)
  {
    RunFromJoinsEveryGeometry(gs, 0, health, c1, c2, j);
  }
}

=== FILE: data_store.dfy ===
/**
 * `DataStore`: one shared selection and an ordered list of listeners
 * that are told about every new selection. Listeners are opaque
 * identities; a call of `listener.update(data)` is recorded as a
 * delivery in a ghost log, which is all the store can observe of it.
 */
module SelectionStore {
  import opened JsValues
  import Seqs

  /** The identity of a registered listener object. */
  type ListenerId = nat

  /** One call `listener.update(data)`; `data` is None for `null`. */
  datatype Delivery<T> = Delivery(listener: ListenerId, data: Option<T>)

  /** One `update` call per entry of `listeners`, in list order. */
  function Broadcast<T>(listeners: seq<ListenerId>, data: Option<T>): (ds: seq<Delivery<T>>)
    ensures |ds| == |listeners|
    ensures forall i :: 0 <= i < |ds| ==> ds[i] == Delivery(listeners[i], data)
  {
    seq(|listeners|, i requires 0 <= i < |listeners| => Delivery(listeners[i], data))
  }

  /**
   * The position of the first listener whose `update` throws, if any;
   * `throwing` is the set of listeners whose `update` throws on this
   * selection, which is the listeners' own code and is given.
   */
  function FirstThrow(listeners: seq<ListenerId>, throwing: set<ListenerId>): (k: Option<nat>)
    ensures k.None? <==> forall i :: 0 <= i < |listeners| ==> listeners[i] !in throwing
    ensures k.Some? ==> k.value < |listeners| && listeners[k.value] in throwing
    ensures k.Some? ==> forall i :: 0 <= i < k.value ==> listeners[i] !in throwing
  {
    if |listeners| == 0 then None
    else if listeners[0] in throwing then Some(0)
    else
      assert forall i :: 1 <= i < |listeners| ==> listeners[1..][i - 1] == listeners[i];
      match FirstThrow(listeners[1..], throwing)
      case None => None
      case Some(k) => Some(k + 1)
  }

  /**
   * The `update` calls one `forEach` round makes: every listener in
   * order up to and including the first one that throws, whose exception
   * ends the round.
   */
  function Round<T>(listeners: seq<ListenerId>, data: Option<T>, throwing: set<ListenerId>): (ds: seq<Delivery<T>>)
    ensures |ds| <= |listeners|
    ensures forall i :: 0 <= i < |ds| ==> ds[i] == Delivery(listeners[i], data)
    ensures FirstThrow(listeners, throwing).None? ==> |ds| == |listeners|
    ensures FirstThrow(listeners, throwing).Some? ==> |ds| == FirstThrow(listeners, throwing).value + 1
  {
    match FirstThrow(listeners, throwing)
    case None => Broadcast(listeners, data)
    case Some(k) => Broadcast(listeners[..k + 1], data)
  }

  /** A round in which no listener throws reaches every listener, in order. */
  lemma RoundWithoutThrow<T>(listeners: seq<ListenerId>, data: Option<T>, throwing: set<ListenerId>)
    requires forall l :: l in listeners ==> l !in throwing
    ensures Round(listeners, data, throwing) == Broadcast(listeners, data)
  {
  }

  /** `listeners.filter(l => l !== listener)`. */
  function Without(listeners: seq<ListenerId>, listener: ListenerId): (rest: seq<ListenerId>)
    ensures |rest| <= |listeners|
    ensures forall l :: l in rest <==> l in listeners && l != listener
  {
    Seqs.Filter(listeners, (l: ListenerId) => l != listener)
  }

  /** Each registration of a listener yields exactly one delivery to it. */
  lemma {:induction false} BroadcastCountsRegistrations<T>(listeners: seq<ListenerId>, data: Option<T>, l: ListenerId)
    ensures Seqs.Count(Broadcast(listeners, data), Delivery(l, data)) == Seqs.Count(listeners, l)
  {
    if |listeners| > 0 {
      var ds := Broadcast(listeners, data);
      assert ds[1..] == Broadcast(listeners[1..], data);
      BroadcastCountsRegistrations(listeners[1..], data, l);
    }
  }

  /** Unregistering removes every occurrence of the listener and no other entry. */
  lemma {:induction false} WithoutRemovesAll(listeners: seq<ListenerId>, listener: ListenerId, other: ListenerId)
    ensures Seqs.Count(Without(listeners, listener), listener) == 0
    ensures other != listener ==> Seqs.Count(Without(listeners, listener), other) == Seqs.Count(listeners, other)
  {
    if |listeners| > 0 {
      assert listeners == [listeners[0]] + listeners[1..];
      WithoutRemovesAll(listeners[1..], listener, other);
      if listeners[0] != listener {
        Seqs.CountAppend([listeners[0]], Without(listeners[1..], listener), other);
      }
    }
  }

  /** Unregistering keeps the relative order of the remaining listeners. */
  lemma WithoutKeepsOrder(a: seq<ListenerId>, b: seq<ListenerId>, listener: ListenerId)
    ensures Without(a + b, listener) == Without(a, listener) + Without(b, listener)
  {
    Seqs.FilterAppend(a, b, (l: ListenerId) => l != listener);
  }

  /** Unregistering a listener that is not registered leaves the list unchanged. */
  lemma WithoutAbsent(listeners: seq<ListenerId>, listener: ListenerId)
    requires listener !in listeners
    ensures Without(listeners, listener) == listeners
  {
    Seqs.FilterAll(listeners, (l: ListenerId) => l != listener);
  }

  class DataStore<T> {
    var selectedData: Option<T>
    var listeners: seq<ListenerId>
    /** Every `update` call made so far, oldest first. */
    ghost var deliveries: seq<Delivery<T>>

    constructor ()
      ensures selectedData == None && listeners == [] && deliveries == []
    {
      selectedData := None;
      listeners := [];
      deliveries := [];
    }

    /**
     * Store the selection, then tell every registered listener about it;
     * `ok` is false when a listener's `update` threw, which propagates.
     */
    method SetSelectedData(data: Option<T>, throwing: set<ListenerId>) returns (ok: bool)
      modifies this
      ensures selectedData == data && listeners == old(listeners)
      ensures ok <==> FirstThrow(listeners, throwing).None?
      ensures deliveries == old(deliveries) + Round(listeners, data, throwing)
    {
      selectedData := data;
      ok := NotifyListeners(throwing);
    }

    method GetSelectedData() returns (data: Option<T>)
      ensures data == selectedData
    {
      data := selectedData;
    }

    method RegisterListener(listener: ListenerId)
      modifies this
      ensures listeners == old(listeners) + [listener]
      ensures selectedData == old(selectedData) && deliveries == old(deliveries)
    {
      listeners := listeners + [listener];
    }

    method UnregisterListener(listener: ListenerId)
      modifies this
      ensures listeners == Without(old(listeners), listener)
      ensures selectedData == old(selectedData) && deliveries == old(deliveries)
    {
      listeners := Without(listeners, listener);
    }

    /**
     * `listeners.forEach(l => l.update(selectedData))`: a listener whose
     * `update` throws ends the round, and `ok` is false.
     */
    method NotifyListeners(throwing: set<ListenerId>) returns (ok: bool)
      modifies this`deliveries
      ensures ok <==> FirstThrow(listeners, throwing).None?
      ensures deliveries == old(deliveries) + Round(listeners, selectedData, throwing)
    {
      ok := true;
      var i := 0;
      while i < |listeners| && ok
        invariant 0 <= i <= |listeners|
        invariant deliveries == old(deliveries) + Broadcast(listeners[..i], selectedData)
        invariant ok ==> forall j :: 0 <= j < i ==> listeners[j] !in throwing
        invariant !ok ==> 0 < i && FirstThrow(listeners, throwing) == Some(i - 1)
      {
        deliveries := deliveries + [Delivery(listeners[i], selectedData)];
        ok := listeners[i] !in throwing;
        i := i + 1;
      }
      assert listeners[..|listeners|] == listeners;
    }
  }
}

=== FILE: dataset.dfy ===
/**
 * The records the dashboard joins and draws: rows of the county health
 * table, the TopoJSON county geometries whose `properties` objects the
 * join fills in place, and the feature descriptors used for labels.
 */
module Dataset {
  import opened JsValues

  /**
   * The `properties` object of one county geometry. TopoJSON supplies
   * `name`; the join writes `poverty_perc`, `percent_high_cholesterol`
   * and `id`, which are `undefined` until then.
   */
  datatype Props = Props(name: string, povertyPerc: Val, cholesterolPerc: Val, id: Val)

  /** One county geometry: its FIPS `id` and its mutable `properties`. */
  datatype Geometry = Geometry(id: int, properties: Props)

  /** One row of the health table: its `cnty_fips` and the metric cells it has. */
  datatype HealthRow = HealthRow(cntyFips: int, metrics: map<string, real>)

  /** An entry of the feature list: `feature_id`, `feature_name`, `tooltip_desc`. */
  datatype Descriptor = Descriptor(featureId: string, featureName: string, tooltipDesc: string)

  /** The cell `row[name]`: `undefined` (None) when the row has no such column. */
  function Cell(row: HealthRow, name: string): (c: Option<real>)
    ensures c.Some? <==> name in row.metrics
    ensures c.Some? ==> c.value == row.metrics[name]
  {
    if name in row.metrics then Some(row.metrics[name]) else None
  }

  /** A metric column `health.map(d => d[name])`. */
  type Column = seq<Option<real>>

  function ColumnOf(health: seq<HealthRow>, name: string): (c: Column)
    ensures |c| == |health|
    ensures forall i :: 0 <= i < |health| ==> c[i] == Cell(health[i], name)
  {
    seq(|health|, i requires 0 <= i < |health| => Cell(health[i], name))
  }

  /** The two property slots the views read. */
  datatype Field = PovertyPerc | HighCholesterol

  function Get(p: Props, f: Field): Val {
    match f
    case PovertyPerc => p.povertyPerc
    case HighCholesterol => p.cholesterolPerc
  }

  /** `records.map(d => d[field])`. */
  function ValuesOf(ps: seq<Props>, f: Field): (vs: seq<Val>)
    ensures |vs| == |ps|
    ensures forall i :: 0 <= i < |ps| ==> vs[i] == Get(ps[i], f)
  {
    seq(|ps|, i requires 0 <= i < |ps| => Get(ps[i], f))
  }

  /** `geometries.map(d => d.properties)`, which is also what `topojson.feature` hands the maps. */
  function PropertiesOf(gs: seq<Geometry>): (ps: seq<Props>)
    ensures |ps| == |gs|
    ensures forall i :: 0 <= i < |gs| ==> ps[i] == gs[i].properties
  {
    seq(|gs|, i requires 0 <= i < |gs| => gs[i].properties)
  }

  /**
   * The loaded `counties` TopoJSON object, shared by reference between
   * the join and every view: `objects.counties.geometries` and the two
   * descriptors the join attaches as `feature1` and `feature2`.
   */
  class Counties {
    const geometries: array<Geometry>
    var feature1: Option<Descriptor>
    var feature2: Option<Descriptor>

    constructor (gs: seq<Geometry>)
      ensures fresh(geometries) && geometries[..] == gs
      ensures feature1 == None && feature2 == None
    {
      geometries := new Geometry[|gs|](i requires 0 <= i < |gs| => gs[i]);
      feature1, feature2 := None, None;
    }

    function Properties(): seq<Props>
      reads this, geometries
    {
      PropertiesOf(geometries[..])
    }
  }
}

=== FILE: js_values.dfy ===
/**
 * JavaScript values as the dashboard sees them once a CSV cell or a
 * TopoJSON property has been read, and the few d3 reductions over them
 * that the views use (d3.min, d3.max, d3.extent).
 */
module JsValues {

  datatype Option<T> = None | Some(value: T)

  /** A property value: `undefined`, `NaN`, a number or a string. */
  datatype Val = Undef | NaN | Num(r: real) | Str(s: string)

  /** The sentinel the health table uses for "no data". */
  const Sentinel: real := -1.0

  /** JavaScript truthiness: `undefined`, `NaN`, `0` and `""` are falsy. */
  predicate Truthy(v: Val)
    ensures Truthy(v) <==> v !in {Undef, NaN, Num(0.0), Str("")}
  {
    match v
    case Undef => false
    case NaN => false
    case Num(r) => r != 0.0
    case Str(s) => s != ""
  }

  /** A real value that is not the sentinel: what the views plot and scale. */
  predicate IsDatum(v: Val)
    ensures IsDatum(v) ==> v != Num(Sentinel) && v !in {Undef, NaN}
    ensures v.Num? && v != Num(Sentinel) ==> IsDatum(v)
  {
    v.Num? && v.r != Sentinel
  }

  /** Unary `+` applied to a cell that is either absent or an already parsed number. */
  function ToNumber(cell: Option<real>): (v: Val)
    ensures v.Num? <==> cell.Some?
    ensures cell.Some? ==> v == Num(cell.value)
    ensures cell.None? ==> v == NaN && !Truthy(v)
  {
    match cell
    case None => NaN
    case Some(r) => Num(r)
  }

  /**
   * The numbers d3 looks at in a sequence of values: d3.min, d3.max and
   * d3.extent skip `undefined` and `NaN` (strings never reach them here).
   */
  function Numbers(vs: seq<Val>): (xs: seq<real>)
    ensures |xs| <= |vs|
    ensures forall x :: x in xs <==> Num(x) in vs
  {
    if |vs| == 0 then []
    else
      var rest := Numbers(vs[1..]);
      assert vs == [vs[0]] + vs[1..];
      if vs[0].Num? then [vs[0].r] + rest else rest
  }

  /** d3.max over numbers: `undefined` (None) for no numbers. */
  function MaxOf(xs: seq<real>): (m: Option<real>)
    ensures m.Some? <==> |xs| > 0
    ensures m.Some? ==> m.value in xs && forall x :: x in xs ==> x <= m.value
  {
    if |xs| == 0 then None
    else
      assert xs == [xs[0]] + xs[1..];
      match MaxOf(xs[1..])
      case None => Some(xs[0])
      case Some(rest) => Some(if xs[0] >= rest then xs[0] else rest)
  }

  /** d3.min over numbers: `undefined` (None) for no numbers. */
  function MinOf(xs: seq<real>): (m: Option<real>)
    ensures m.Some? <==> |xs| > 0
    ensures m.Some? ==> m.value in xs && forall x :: x in xs ==> m.value <= x
  {
    if |xs| == 0 then None
    else
      assert xs == [xs[0]] + xs[1..];
      match MinOf(xs[1..])
      case None => Some(xs[0])
      case Some(rest) => Some(if xs[0] <= rest then xs[0] else rest)
  }

  /** A scale domain `[lo, hi]`; either end is `undefined` when d3 found no number. */
  datatype Domain = Domain(lo: Option<real>, hi: Option<real>)

  /** d3.extent over values: `[min, max]` of the numbers among them. */
  function Extent(vs: seq<Val>): (d: Domain)
    ensures d.lo.Some? <==> d.hi.Some?
    ensures d.hi.Some? <==> exists x :: Num(x) in vs
    ensures d.lo.Some? ==> Num(d.lo.value) in vs && Num(d.hi.value) in vs && d.lo.value <= d.hi.value
    ensures d.lo.Some? ==> forall x :: Num(x) in vs ==> d.lo.value <= x <= d.hi.value
  {
    var xs := Numbers(vs);
    assert forall x :: Num(x) in vs ==> x in xs;
    Domain(MinOf(xs), MaxOf(xs))
  }
}

=== FILE: layout.dfy ===
/**
 * Chart configuration: container size with `||` fallbacks to per-view
 * defaults, a margin object, and the inner drawing size derived from
 * them.
 */
module Layout {
  import opened JsValues

  datatype Margin = Margin(top: real, right: real, bottom: real, left: real)

  /** The `_config` argument of a view; None is an absent (`undefined`) entry. */
  datatype Config = Config(containerWidth: Option<real>, containerHeight: Option<real>, margin: Option<Margin>)

  /** What every view is given in main.js: only a parent element. */
  const Unconfigured := Config(None, None, None)

  /** `value || fallback` for a number: `undefined` and `0` fall back. */
  function OrDefault(value: Option<real>, fallback: real): (r: real)
    ensures value.Some? && value.value != 0.0 ==> r == value.value
    ensures value.None? || value.value == 0.0 ==> r == fallback
  {
    if value.Some? && value.value != 0.0 then value.value else fallback
  }

  /** The `this.config` a view builds from its defaults. */
  datatype Settings = Settings(containerWidth: real, containerHeight: real, margin: Margin)

  function Settle(cfg: Config, width: real, height: real, margin: Margin): (s: Settings)
    ensures cfg == Unconfigured ==> s == Settings(width, height, margin)
    ensures s.containerWidth == OrDefault(cfg.containerWidth, width)
    ensures s.containerHeight == OrDefault(cfg.containerHeight, height)
    ensures s.margin == (if cfg.margin.Some? then cfg.margin.value else margin)
  {
    Settings(OrDefault(cfg.containerWidth, width), OrDefault(cfg.containerHeight, height),
             if cfg.margin.Some? then cfg.margin.value else margin)
  }

  /** `width = containerWidth - left - right`, `height = containerHeight - top - bottom`. */
  function InnerSize(s: Settings): (size: (real, real))
    ensures s.margin.left + size.0 + s.margin.right == s.containerWidth
    ensures s.margin.top + size.1 + s.margin.bottom == s.containerHeight
  {
    (s.containerWidth - s.margin.left - s.margin.right, s.containerHeight - s.margin.top - s.margin.bottom)
  }
}

=== FILE: main.dfy ===
/**
 * The coordinator of main.js: the in-place join `dataConsolidation` over
 * the shared counties object, the views built on that one object, the
 * refresh that follows a change of the two metric selectors, and the
 * two brush-to-view hand-offs over the dispatcher.
 */
module Main {
  import opened JsValues
  import opened Dataset
  import opened Consolidation
  import opened Brush
  import opened Layout
  import opened Choropleth
  import opened PovertyMapView
  import opened CholesterolMapView
  import opened ScatterView

  /**
   * `dataConsolidation(d1, d2, id1, id2)`: attach the two descriptors, then
   * join every geometry against every health row in place. `ok` is false
   * when reading a missing column threw.
   */
  method DataConsolidation(counties: Counties, health: seq<HealthRow>, features: seq<Descriptor>,
                           d1: Option<Column>, d2: Option<Column>, id1: string, id2: string)
    returns (ok: bool)
    requires Fits(d1, health) && Fits(d2, health)
    modifies counties, counties.geometries
    ensures counties.feature1 == FindDescriptor(features, id1)
    ensures counties.feature2 == FindDescriptor(features, id2)
    ensures (counties.geometries[..], !ok) == Consolidate(old(counties.geometries[..]), health, d1, d2)
  {
    counties.feature1 := FindDescriptor(features, id1);
    counties.feature2 := FindDescriptor(features, id2);
    var a := counties.geometries;
    ghost var start := a[..];
    ok := true;
    var k := 0;
    while k < a.Length && ok
      invariant 0 <= k <= a.Length
      invariant counties.feature1 == FindDescriptor(features, id1)
      invariant counties.feature2 == FindDescriptor(features, id2)
      invariant ok ==> Consolidate(start, health, d1, d2) == RunFrom(a[..], k, health, d1, d2)
      invariant !ok ==> Consolidate(start, health, d1, d2) == (a[..], true)
    {
      ok := JoinGeometryInPlace(a, k, health, d1, d2);
      k := k + 1;
    }
  }

  /** The `forEach` callback for geometry `k`: the inner loop over the health rows. */
  method JoinGeometryInPlace(a: array<Geometry>, k: nat, health: seq<HealthRow>, d1: Option<Column>, d2: Option<Column>)
    returns (ok: bool)
    requires k < a.Length && Fits(d1, health) && Fits(d2, health)
    modifies a
    ensures a[..] == old(a[..])[k := JoinGeometry(old(a[k]), health, d1, d2).0]
    ensures ok == !JoinGeometry(old(a[k]), health, d1, d2).1
  {
    ghost var g := a[k];
    ok := true;
    var i := 0;
    while i < |health| && ok
      invariant 0 <= i <= |health|
      invariant a[..] == old(a[..])[k := a[k]]
      invariant (a[k], !ok) == JoinRows(g, health, d1, d2, i)
    {
      if a[k].id == health[i].cntyFips {
        if d1.None? {
          ok := false;  // TypeError: reading d1[i] of undefined
        } else {
          a[k] := a[k].(properties := a[k].properties.(povertyPerc := ToNumber(d1.value[i])));
          if d2.None? {
            ok := false;  // TypeError: reading d2[i] of undefined
          } else {
            a[k] := a[k].(properties := a[k].properties.(cholesterolPerc := ToNumber(d2.value[i])));
            a[k] := a[k].(properties := a[k].properties.(id := Num(health[i].cntyFips as real)));
          }
        }
      }
      i := i + 1;
    }
    if !ok {
      JoinRowsStopsAtThrow(g, health, d1, d2, i, |health|);
    }
  }

  /** The first join, with the two columns every health row is read for, never throws. */
  lemma LoadingNeverThrows(gs: seq<Geometry>, health: seq<HealthRow>)
    ensures !Consolidate(gs, health, Some(ColumnOf(health, "poverty_perc")), Some(ColumnOf(health, "percent_high_cholesterol"))).1
  {
    ConsolidateThrowsIff(gs, health, Some(ColumnOf(health, "poverty_perc")), Some(ColumnOf(health, "percent_high_cholesterol")));
  }

  /**
   * Loading: a fresh counties object over the loaded geometries, joined
   * with the `poverty_perc` and `percent_high_cholesterol` columns.
   */
  method LoadCounties(gs: seq<Geometry>, health: seq<HealthRow>, features: seq<Descriptor>) returns (c: Counties)
    ensures fresh(c) && fresh(c.geometries)
    ensures c.geometries[..] ==
              Consolidate(gs, health, Some(ColumnOf(health, "poverty_perc")), Some(ColumnOf(health, "percent_high_cholesterol"))).0
    ensures c.feature1 == FindDescriptor(features, "poverty_perc")
    ensures c.feature2 == FindDescriptor(features, "percent_high_cholesterol")
  {
    c := new Counties(gs);
    var poverty := Some(ColumnOf(health, "poverty_perc"));
    var cholesterol := Some(ColumnOf(health, "percent_high_cholesterol"));
    // the join cannot throw here: see LoadingNeverThrows
    var _ := DataConsolidation(c, health, features, poverty, cholesterol, "poverty_perc", "percent_high_cholesterol");
  }

  /** The three views the dashboard creates over one counties object, each with the default configuration. */
  method NewViews(counties: Counties) returns (p: PovertyMap, c: CholesterolMap, s: CholesterolScatter)
    ensures fresh(p) && fresh(c) && fresh(s)
    ensures p.data == counties && c.data == counties && s.data == counties
    ensures s.Valid()
  {
    p := new PovertyMap(Unconfigured, counties);
    c := new CholesterolMap(Unconfigured, counties);
    s := new CholesterolScatter(Unconfigured, counties);
  }

  /**
   * The page once the data has loaded: the counties object, the health
   * table, the descriptor list, and the views that all hold the same
   * counties object.
   */
  class Dashboard {
    const counties: Counties
    const health: seq<HealthRow>
    const features: seq<Descriptor>
    const povertyMap: PovertyMap
    const cholesterolMap: CholesterolMap
    const scatter: CholesterolScatter
    /**
     * How many of `povertyMap`, `cholesterolMap` and `scatter`, in that
     * order, finished construction. A view whose `initVis` threw, and
     * every view after it, stays uninitialised (in the temporal dead zone
     * of its `const`), so any later use of it throws a ReferenceError.
     */
    var built: nat

    /** Every view draws from the one counties object the join fills. */
    predicate Shared() {
      povertyMap.data == counties && cholesterolMap.data == counties && scatter.data == counties
    }

    /**
     * Each view shows the current contents of the counties object, with
     * no selection, labelled from the current descriptors.
     */
    ghost predicate Current()
      reads povertyMap, cholesterolMap, scatter, counties, counties.geometries
    {
      var ps := counties.Properties();
      Shared() && counties.feature1.Some? && counties.feature2.Some? &&
      povertyMap.colorDomain == ColorDomain(ps, PovertyPerc) &&
      povertyMap.legendStops == LegendStops(povertyMap.colorDomain, PovertyMapView.LowColor, PovertyMapView.HighColor) &&
      povertyMap.legendTitle == counties.feature1.value.featureName &&
      povertyMap.styles == Draw(ps, PovertyPerc, None) &&
      cholesterolMap.colorDomain == ColorDomain(ps, HighCholesterol) &&
      cholesterolMap.legendStops == LegendStops(cholesterolMap.colorDomain, CholesterolMapView.LowColor, CholesterolMapView.HighColor) &&
      cholesterolMap.legendTitle == counties.feature2.value.featureName &&
      cholesterolMap.styles == Draw(ps, HighCholesterol, None) &&
      scatter.Valid() && scatter.GoodRecords() == GoodData(ps) && scatter.drawn == GoodData(ps) &&
      scatter.xDomain == Extent(ValuesOf(GoodData(ps), HighCholesterol)) &&
      scatter.yDomain == Extent(ValuesOf(GoodData(ps), PovertyPerc)) &&
      scatter.xTitle == counties.feature2.value.featureName && scatter.yTitle == counties.feature1.value.featureName
    }

    /**
     * What the `updateVis` calls of a refresh leave, given how many views
     * were built: each view is updated if it was built and everything
     * before it succeeded. A map's `updateVis` rewrites its colour domain
     * and legend stops before it reads its descriptor, so a throw there
     * keeps only its title and its drawing. The first throw stops the
     * rest, which keep their state.
     */
    twostate predicate Refreshed(ok: bool)
      reads this, povertyMap, cholesterolMap, scatter, counties, counties.geometries
    {
      var ps := counties.Properties();
      var f1, f2 := counties.feature1, counties.feature2;
      (ok <==> built >= 3 && f1.Some? && f2.Some?) &&
      (ok ==> Current()) &&
      scatter.Valid() &&
      (built == 0 ==> unchanged(povertyMap)) &&
      (built >= 1 ==> povertyMap.colorDomain == ColorDomain(ps, PovertyPerc) &&
                      povertyMap.legendStops == LegendStops(povertyMap.colorDomain, PovertyMapView.LowColor, PovertyMapView.HighColor)) &&
      (built >= 1 && f1.Some? ==> povertyMap.legendTitle == f1.value.featureName &&
                                  povertyMap.styles == Draw(ps, PovertyPerc, None)) &&
      (f1.None? ==> povertyMap.legendTitle == old(povertyMap.legendTitle) && povertyMap.styles == old(povertyMap.styles)) &&
      (built <= 1 || f1.None? ==> unchanged(cholesterolMap)) &&
      (built >= 2 && f1.Some? ==> cholesterolMap.colorDomain == ColorDomain(ps, HighCholesterol) &&
                                  cholesterolMap.legendStops == LegendStops(cholesterolMap.colorDomain, CholesterolMapView.LowColor, CholesterolMapView.HighColor)) &&
      (built >= 2 && f1.Some? && f2.Some? ==> cholesterolMap.legendTitle == f2.value.featureName &&
                                              cholesterolMap.styles == Draw(ps, HighCholesterol, None)) &&
      (f2.None? ==> cholesterolMap.legendTitle == old(cholesterolMap.legendTitle) && cholesterolMap.styles == old(cholesterolMap.styles)) &&
      (built <= 2 || f1.None? || f2.None? ==> unchanged(scatter))
    }

    /**
     * The views in the order they are built, all over the one counties
     * object that loading joined; each view's `initVis` is `Start`.
     */
    constructor (counties: Counties, health: seq<HealthRow>, features: seq<Descriptor>)
      ensures this.counties == counties && this.health == health && this.features == features && built == 0
      // Shared(), spelled out
      ensures povertyMap.data == counties && cholesterolMap.data == counties && scatter.data == counties
      ensures scatter.Valid()
      ensures fresh(povertyMap) && fresh(cholesterolMap) && fresh(scatter)
    {
      built := 0;
      this.counties := counties;
      this.health := health;
      this.features := features;
      var p, c, sc := NewViews(counties);
      povertyMap, cholesterolMap, scatter := p, c, sc;
    }

    /**
     * The `initVis` each view's constructor ends with, in construction
     * order; the first throw stops the rest. The poverty map needs
     * `feature1`, the cholesterol map `feature2`, so the scatter, which
     * needs both, never throws once both maps are built.
     */
    method Start() returns (ok: bool)
      requires Shared() && scatter.Valid()
      modifies this, povertyMap, cholesterolMap, scatter
      ensures scatter.Valid()
      ensures built == (if counties.feature1.None? then 0 else if counties.feature2.None? then 1 else 3)
      ensures ok <==> built == 3
      ensures ok ==> Current()
      ensures built == 0 ==> unchanged(povertyMap, cholesterolMap, scatter)
      ensures built == 1 ==> unchanged(cholesterolMap, scatter)
      ensures built >= 1 ==> povertyMap.colorDomain == ColorDomain(counties.Properties(), PovertyPerc) &&
                             povertyMap.legendStops == LegendStops(povertyMap.colorDomain, PovertyMapView.LowColor, PovertyMapView.HighColor) &&
                             povertyMap.legendTitle == counties.feature1.value.featureName &&
                             povertyMap.styles == Draw(counties.Properties(), PovertyPerc, None)
    {
      built := 0;
      ok := povertyMap.InitVis();
      if !ok {
        return;
      }
      built := 1;
      ok := cholesterolMap.InitVis();
      if !ok {
        return;
      }
      ok := scatter.InitVis();
      built := 3;
    }

    /**
     * The `updateVis` calls of `updateVisualizations()`, in order. Each
     * view is updated if it was built and everything before it succeeded;
     * the first throw (a missing descriptor, or a ReferenceError for a
     * view never built) stops the rest, which keep their state.
     */
    method RefreshViews() returns (ok: bool)
      requires Shared() && scatter.Valid()
      modifies povertyMap, cholesterolMap, scatter
      ensures Refreshed(ok)
    {
      if built < 1 {
        return false;  // ReferenceError: povertyMap is uninitialised
      }
      ok := povertyMap.UpdateVis();
      if !ok {
        return;
      }
      if built < 2 {
        return false;  // ReferenceError: cholesterolMap is uninitialised
      }
      ok := cholesterolMap.UpdateVis();
      if !ok {
        return;
      }
      if built < 3 {
        return false;  // ReferenceError: cholesterolScatter is uninitialised
      }
      ok := scatter.UpdateVis();
    }

    /**
     * `updateVisualizations()` for the selected metric names: pick both
     * columns, rejoin, then update the views in order. A throw in the
     * join leaves every view as it was.
     */
    method UpdateVisualizations(primary: string, secondary: string) returns (ok: bool)
      requires Shared() && scatter.Valid()
      modifies counties, counties.geometries, povertyMap, cholesterolMap, scatter
      ensures counties.feature1 == FindDescriptor(features, primary)
      ensures counties.feature2 == FindDescriptor(features, secondary)
      ensures counties.geometries[..] ==
                Consolidate(old(counties.geometries[..]), health, PrimaryColumn(health, primary), SecondaryColumn(health, secondary)).0
      ensures Consolidate(old(counties.geometries[..]), health, PrimaryColumn(health, primary), SecondaryColumn(health, secondary)).1 ==>
                !ok && scatter.Valid() && unchanged(povertyMap, cholesterolMap, scatter)
      ensures !Consolidate(old(counties.geometries[..]), health, PrimaryColumn(health, primary), SecondaryColumn(health, secondary)).1 ==>
                Refreshed(ok)
    {
      var d1 := PrimaryColumn(health, primary);
      var d2 := SecondaryColumn(health, secondary);
      ok := DataConsolidation(counties, health, features, d1, d2, primary, secondary);
      if !ok {
        return;
      }
      ok := RefreshViews();
    }

    /**
     * A scatter brush event: the scatter publishes on `scatterPlotBrush`
     * and the poverty map, which listens there, redraws with the payload.
     * A cleared brush strokes no county. The scatter's brush exists only
     * once its `initVis` has run, so every view is built.
     */
    method ScatterBrushed(selection: Option<Rect>, points: seq<Point>) returns (pub: Publication)
      requires Shared() && scatter.Valid() && built >= 3 && |points| == |scatter.goodIdx|
      modifies povertyMap`styles
      ensures pub == scatter.Brushed(selection, points)
      ensures povertyMap.styles == Draw(counties.Properties(), PovertyPerc, pub.payload)
      ensures selection.None? ==> forall i :: 0 <= i < |povertyMap.styles| ==> povertyMap.styles[i].stroke == "none"
    {
      pub := scatter.Brushed(selection, points);
      povertyMap.RenderVis(pub.payload);
    }

    /**
     * A map brush event: the poverty map publishes on `mapBrush` unless
     * the brush is empty, and the scatter, which registers its listener
     * there when it first draws, redraws all of its valid points whatever
     * the payload. The map's brush exists once the poverty map is built.
     */
    method MapBrushed(selection: Option<Rect>, centroids: seq<Point>) returns (pub: Publication)
      requires Shared() && scatter.Valid() && built >= 1 && |centroids| == counties.geometries.Length
      modifies scatter`drawn
      ensures pub.Silent? <==> selection.None?
      ensures selection.Some? ==>
                pub == Publish(PovertyMapView.BrushChannel, Some(InRect(Features(counties.geometries[..]), centroids, selection.value)))
      ensures pub.Publish? && built >= 3 ==> scatter.drawn == scatter.GoodRecords()
      ensures pub.Silent? || built < 3 ==> scatter.drawn == old(scatter.drawn)
    {
      pub := povertyMap.Brushed(selection, centroids);
      if pub.Publish? && built >= 3 {
        scatter.RenderVis(pub.payload);
      }
    }
  }

  /**
   * The page's start-up once the three files have loaded: join the
   * health table into the counties object, create the views over that
   * one object, and run each view's `initVis` in construction order.
   */
  method Open(gs: seq<Geometry>, health: seq<HealthRow>, features: seq<Descriptor>) returns (d: Dashboard, ok: bool)
    ensures fresh(d) && fresh(d.counties) && fresh(d.counties.geometries)
    ensures fresh(d.povertyMap) && fresh(d.cholesterolMap) && fresh(d.scatter)
    ensures d.health == health && d.features == features && d.Shared() && d.scatter.Valid()
    ensures d.counties.geometries[..] ==
              Consolidate(gs, health, Some(ColumnOf(health, "poverty_perc")), Some(ColumnOf(health, "percent_high_cholesterol"))).0
    ensures d.counties.feature1 == FindDescriptor(features, "poverty_perc")
    ensures d.counties.feature2 == FindDescriptor(features, "percent_high_cholesterol")
    ensures d.built == (if d.counties.feature1.None? then 0 else if d.counties.feature2.None? then 1 else 3)
    ensures ok <==> FindDescriptor(features, "poverty_perc").Some? && FindDescriptor(features, "percent_high_cholesterol").Some?
    ensures ok ==> d.Current()
  {
    var counties := LoadCounties(gs, health, features);
    d := new Dashboard(counties, health, features);
    ok := d.Start();
  }
}

=== FILE: poverty_map.dfy ===
/**
 * `PovertyMap`: the county choropleth of the primary metric (stored in
 * `poverty_perc`), its legend, and the rectangle brush that publishes
 * the counties whose centroid it covers on the `mapBrush` channel.
 */
module PovertyMapView {
  import opened JsValues
  import opened Dataset
  import opened Layout
  import opened Brush
  import opened Choropleth

  const DefaultMargin := Margin(-100.0, 0.0, 0.0, 0.0)
  const LowColor := "#cfe2f2"
  const HighColor := "#0d306b"
  const BrushChannel := "mapBrush"

  class PovertyMap {
    /** The shared counties object the join fills in place. */
    const data: Counties
    const settings: Settings
    const width: real
    const height: real
    /** The colour scale's domain. */
    var colorDomain: Domain
    var legendStops: seq<Stop>
    var legendTitle: string
    /** The attributes of the drawn county paths, in county order. */
    var styles: seq<CountyStyle>

    /**
     * The configuration part of the constructor; the `initVis` it ends
     * with is `InitVis`, which can throw.
     */
    constructor (cfg: Config, data: Counties)
      ensures this.data == data
      ensures settings == Settle(cfg, 500.0, 420.0, DefaultMargin)
      ensures (width, height) == InnerSize(settings)
      ensures cfg == Unconfigured ==> width == 500.0 && height == 520.0
      ensures colorDomain == Domain(None, None) && legendStops == [] && legendTitle == "" && styles == []
    {
      this.data := data;
      settings := Settle(cfg, 500.0, 420.0, DefaultMargin);
      width := InnerSize(Settle(cfg, 500.0, 420.0, DefaultMargin)).0;
      height := InnerSize(Settle(cfg, 500.0, 420.0, DefaultMargin)).1;
      colorDomain := Domain(None, None);
      legendStops := [];
      legendTitle := "";
      styles := [];
    }

    /** `initVis`: the legend title needs `feature1`, then a first `updateVis`. */
    method InitVis() returns (ok: bool)
      modifies this
      ensures ok <==> data.feature1.Some?
      ensures ok ==> colorDomain == ColorDomain(data.Properties(), PovertyPerc)
      ensures ok ==> legendStops == LegendStops(colorDomain, LowColor, HighColor)
      ensures ok ==> legendTitle == data.feature1.value.featureName
      ensures ok ==> styles == Draw(data.Properties(), PovertyPerc, None)
      ensures !ok ==> unchanged(this)
    {
      if data.feature1.None? {
        return false;  // TypeError: reading feature_name of undefined
      }
      legendTitle := data.feature1.value.featureName;
      ok := UpdateVis();
    }

    /**
     * `updateVis`: recompute the colour domain and legend stops, retitle
     * the legend from `feature1` and redraw with no selection.
     */
    method UpdateVis() returns (ok: bool)
      modifies this
      ensures colorDomain == ColorDomain(data.Properties(), PovertyPerc)
      ensures legendStops == LegendStops(colorDomain, LowColor, HighColor)
      ensures ok <==> data.feature1.Some?
      ensures ok ==> legendTitle == data.feature1.value.featureName
      ensures ok ==> styles == Draw(data.Properties(), PovertyPerc, None)
      ensures !ok ==> legendTitle == old(legendTitle) && styles == old(styles)
    {
      colorDomain := ColorDomain(data.Properties(), PovertyPerc);
      legendStops := LegendStops(colorDomain, LowColor, HighColor);
      if data.feature1.None? {
        return false;  // TypeError: reading feature_name of undefined
      }
      legendTitle := data.feature1.value.featureName;
      RenderVis(None);
      ok := true;
    }

    /** `renderVis(selectedData)`: restyle every county for the selection. */
    method RenderVis(selected: Option<seq<Selected>>)
      modifies this`styles
      ensures styles == Draw(data.Properties(), PovertyPerc, selected)
    {
      styles := Draw(data.Properties(), PovertyPerc, selected);
    }

    /**
     * `getSelectedData(x0, y0, x1, y1)`: the county features whose
     * centroid lies in the rectangle, in county order; `centroids[i]` is
     * the projected centroid of geometry `i`.
     */
    method GetSelectedData(r: Rect, centroids: seq<Point>) returns (selected: seq<Selected>)
      requires |centroids| == data.geometries.Length
      ensures selected == InRect(Features(data.geometries[..]), centroids, r)
    {
      var a := data.geometries;
      selected := [];
      var i := 0;
      while i < a.Length
        invariant 0 <= i <= a.Length
        invariant selected == InRect(Features(a[..i]), centroids[..i], r)
      {
        var c := centroids[i];
        if c.x >= r.x0 && c.x <= r.x1 && c.y >= r.y0 && c.y <= r.y1 {
          selected := selected + [Feature(a[i])];
        }
        assert Features(a[..i + 1])[..i] == Features(a[..i]);
        assert centroids[..i + 1][..i] == centroids[..i];
        i := i + 1;
      }
      assert a[..a.Length] == a[..];
      assert centroids[..a.Length] == centroids;
    }

    /** The brush's `end` handler: an empty brush publishes nothing. */
    method Brushed(selection: Option<Rect>, centroids: seq<Point>) returns (pub: Publication)
      requires |centroids| == data.geometries.Length
      ensures selection.None? ==> pub == Silent
      ensures selection.Some? ==> pub == Publish(BrushChannel, Some(InRect(Features(data.geometries[..]), centroids, selection.value)))
    {
      if selection.None? {
        return Silent;
      }
      var selected := GetSelectedData(selection.value, centroids);
      pub := Publish(BrushChannel, Some(selected));
    }
  }
}

=== FILE: seqs.dfy ===
/**
 * `Array.prototype.filter` and occurrence counting on sequences, with the
 * facts the views rely on: a filter keeps exactly the elements its test
 * accepts, in their original order, and filtering twice changes nothing.
 */
module Seqs {

  /** `s.filter(keep)`. */
  function Filter<T(==)>(s: seq<T>, keep: T -> bool): (r: seq<T>)
    ensures |r| <= |s|
    ensures forall i :: 0 <= i < |r| ==> r[i] in s && keep(r[i])
    ensures forall i :: 0 <= i < |s| && keep(s[i]) ==> s[i] in r
  {
    if |s| == 0 then []
    else
      assert s == [s[0]] + s[1..];
      if keep(s[0]) then [s[0]] + Filter(s[1..], keep) else Filter(s[1..], keep)
  }

  /** Filtering distributes over concatenation: relative order is kept. */
  lemma {:induction false} FilterAppend<T>(a: seq<T>, b: seq<T>, keep: T -> bool)
    ensures Filter(a + b, keep) == Filter(a, keep) + Filter(b, keep)
  {
    if |a| == 0 {
      assert a + b == b;
    } else {
      assert (a + b)[1..] == a[1..] + b;
      FilterAppend(a[1..], b, keep);
    }
  }

  /** A filter is idempotent. */
  lemma {:induction false} FilterIdempotent<T>(s: seq<T>, keep: T -> bool)
    ensures Filter(Filter(s, keep), keep) == Filter(s, keep)
  {
    if |s| > 0 {
      FilterIdempotent(s[1..], keep);
    }
  }

  /** A filter whose test accepts every element returns its input. */
  lemma {:induction false} FilterAll<T>(s: seq<T>, keep: T -> bool)
    requires forall x :: x in s ==> keep(x)
    ensures Filter(s, keep) == s
  {
    if |s| > 0 {
      assert s == [s[0]] + s[1..];
      FilterAll(s[1..], keep);
    }
  }

  /** Number of occurrences of `x` in `s`. */
  function Count<T(==)>(s: seq<T>, x: T): (n: nat)
    ensures n <= |s|
    ensures n == 0 <==> x !in s
  {
    if |s| == 0 then 0
    else
      assert s == [s[0]] + s[1..];
      (if s[0] == x then 1 else 0) + Count(s[1..], x)
  }

  lemma {:induction false} CountAppend<T>(a: seq<T>, b: seq<T>, x: T)
    ensures Count(a + b, x) == Count(a, x) + Count(b, x)
  {
    if |a| == 0 {
      assert a + b == b;
    } else {
      assert (a + b)[1..] == a[1..] + b;
      CountAppend(a[1..], b, x);
    }
  }
}
